=== FILE: README.md ===
# Salary advance: a Dafny model of the API core

This project models the money and state logic of an earned-wage-access service. An
employee can draw part of the wages already earned this month as an *advance*. The
employer's policy sets how many advances a month are allowed, what share of earned wages
may be drawn, and what fee is charged. An advance is paid out to the employee's M-Pesa
number through Safaricom's B2C payment API, and the provider reports the outcome later
through webhooks.

The model is functional throughout:

- The database (`Schema.Db`) is a record of tables. Each table is a sequence of rows in
  insertion order, so `findFirst` and `limit 1` become "the first matching row", and
  `update ... where id = X` maps every row carrying that id.
- Money is an exact `real`. The scale-2 decimal columns round on insert, half away from
  zero (`Schema.Scale2`).
- The clock and the calendar ("today") are parameters (`AdvanceQueries.Today`).
- Each HTTP call to the provider is an oracle value, the answer the provider gave:
  `MpesaService.AuthResponse` and `MpesaService.PostResponse`.
- A JavaScript `throw` is a `Completion` value, and `a || b` on optional text is
  `Wrappers.OrElse`.
- Each route handler is a function from the database (plus clock and answers) to the
  reply and the database after it.

Modules, following the repository's structure:

| module | models |
|---|---|
| `Calculations` | the pure advance arithmetic and the two-rule eligibility gate (`packages/lib/src/calculations.ts`) |
| `Utils` | phone-number formatting and weekday counting (`packages/lib/src/utils.ts`) |
| `Auth` | the bearer-token and role middleware (`apps/api/src/middleware/auth.ts`) |
| `Schema`, `Validators` | the tables, enums and defaults (`packages/database/src/schema.ts`) and the validation schemas (`packages/types/src/index.ts`) |
| `AdvanceQueries` | the queries the routes share: lookups, the month window, the active filter, the fee-inclusive total, newest-first ordering |
| `AdvancesRoute` | `POST /advances/request` and `GET /advances/:id` |
| `EmployeesRoute` | `GET /employees/dashboard` and `GET /employees/advances` |
| `EmployersRoute` | `POST /employers/employees`, `GET /employers/advances`, `PATCH /employers/advances/:id` |
| `MpesaService` | the B2C client: base URL, token cache, payload, error mapping (`apps/api/src/services/mpesa.ts`) |
| `MpesaCallbacks` | the `/mpesa/result`, `/mpesa/timeout` and query webhooks (`apps/api/src/routes/mpesa.ts`) |
| `Tables`, `Wrappers` | generic first-match, filter and update primitives; `Option`, `Reply`, `Completion` |

Where the system's design description and the code disagree, the model follows the code:

- The result and timeout callbacks have no guard on the advance's current status. A
  failure or timeout arriving after a success turns a disbursed advance into a failed
  one (`MpesaCallbacks.LateFailureOverridesDisbursement`). These callbacks also never
  set `failedAt`.
- The dashboard always offers 50% of earned wages, whatever the employer's policy. It
  sums the ten latest advances of any month, not the advances of this month. It agrees
  with the request gate only under the conditions stated in
  `EmployeesRoute.DashboardAgreesWithRequestGate`.
- The request cap bounds the principal, not the fee-inclusive amount due, so an
  admitted advance can take the total owed past the cap
  (`AdvancesRoute.FeeMayCarryTotalPastCap`).
- Amount, fee and total are each rounded to cents on insert. For a sub-cent principal
  the stored total can differ from the stored amount plus the stored fee
  (`AdvancesRoute.SubCentPrincipalBreaksTotal`).
- An authentication failure inside `sendMoney` carries no provider message. It
  therefore surfaces as "Failed to send M-Pesa payment", never as the authentication
  error.
- An employer row whose `settings` is null makes `POST /advances/request` throw, and the
  framework answers 500.
- `GET /advances/:id` on an advance whose joined employee is missing also throws. The
  framework's error handler answers 500 with the thrown message, "Cannot read
  properties of null (reading 'userId')", rather than 403.

## Model

Source paths are relative to the repository root.

| member | source | states |
|---|---|---|
| Calculations.EarnedToDate | packages/lib/src/calculations.ts:4-10 | earned wages accrue linearly: earned × total days = salary × days worked; a full month earns the whole salary and zero days earn nothing |
| Calculations.EarnedIsAdditive | packages/lib/src/calculations.ts:4-10 | the pay for two stretches of days is the sum of their pays |
| Calculations.EarnedHalfMonth | packages/lib/src/__tests__/calculations.test.ts:11-19 | working half of the days earns half of the salary |
| Calculations.EarnedWithinSalary | packages/lib/src/calculations.ts:4-10 | with a non-negative salary and 0 ≤ days ≤ total, what is earned lies between 0 and the salary |
| Calculations.MaxAdvance | packages/lib/src/calculations.ts:15-17 | the cap is the given percentage of earnings (cap × 100 = earned × pct); zero earnings give 0; 100% gives all earnings |
| Calculations.MaxAdvanceWithinEarned | packages/lib/src/calculations.ts:15-17 | with a percentage in [0,100] the cap lies between 0 and the earnings |
| Calculations.MaxAdvanceMonotone | packages/lib/src/calculations.ts:15-17 | a higher percentage never lowers the cap |
| Calculations.AdvanceFee | packages/lib/src/calculations.ts:22-29 | the fee minus the flat part is the percentage of the amount; a zero percentage charges just the flat fee; the fee is at least the flat fee for non-negative inputs |
| Calculations.FeeIsAdditive | packages/lib/src/calculations.ts:22-29 | the percentage fee is additive in the amount while the flat fee is charged once |
| Calculations.NetPay | packages/lib/src/calculations.ts:34-36 | net plus deductions is gross; a full deduction gives exactly 0 and a larger one goes negative (no clamping) |
| Calculations.CanRequestAdvance | packages/lib/src/calculations.ts:41-69 | allowed iff it carries no reason, iff count < limit and total < cap; the count rule is checked first and names the limit, then the cap rule names the percentage |
| Calculations.EligibilityAntitone | packages/lib/src/calculations.ts:52-66 | fewer or smaller advances never turn an allowed request into a refusal |
| Calculations.EligibilityMonotoneInPercentage | packages/lib/src/calculations.ts:60-66 | raising the cap percentage never turns an allowed request into a refusal |
| Calculations.EarnedExamples | packages/lib/src/__tests__/calculations.test.ts:10-67 | the test file's earned-wage and cap oracles (30000, 1000, 45000; 10000, 22500, 0) |
| Calculations.FeeExamples | packages/lib/src/__tests__/calculations.test.ts:69-127 | the fee oracles (400, 450, 100) and the net-pay oracles (45000, 0) |
| Calculations.EligibilityExamples | packages/lib/src/__tests__/calculations.test.ts:129-196 | the five eligibility scenarios, including the exact denial reasons |
| Utils.FormatPhoneNumber | packages/lib/src/utils.ts:12-28 | every result is "+254" followed by digits only |
| Utils.FormatNational | packages/lib/src/utils.ts:14-24 | for every digit string n, "0" followed by n formats to "+254" followed by n |
| Utils.FormatInternational | packages/lib/src/utils.ts:14-19 | for every digit string n, "254" followed by n formats to "+254" followed by n |
| Utils.SameNumberSameFormat | packages/lib/src/utils.ts:12-28 | a subscriber number written bare, with a leading 0, with 254, or as "+254 " and the number all format to the same "+254" number |
| Utils.DigitsOfDigits | packages/lib/src/utils.ts:14 | extracting digits is idempotent |
| Utils.FormatIgnoresNonDigits | packages/lib/src/utils.ts:14 | non-digit characters play no part: format(x) = format(digits of x) |
| Utils.FormatIdempotent | packages/lib/src/utils.ts:12-28 | formatting a formatted number returns it unchanged |
| Utils.FormatFixesFormatted | packages/lib/src/utils.ts:17-19 | every string of the formatted shape is a fixed point of the formatter |
| Utils.CalculateWorkDays | packages/lib/src/utils.ts:30-44 | returns 0 when start is after end, and otherwise the number of Monday-to-Friday days in the inclusive range, which is never more than its length |
| Utils.WeekHasFiveWorkdays | packages/lib/src/utils.ts:35-39 | any seven consecutive days contribute exactly five workdays |
| Utils.WholeWeeks | packages/lib/src/utils.ts:35-39 | whole weeks count five days each: Saturdays and Sundays are never counted |
| Utils.WeekendCountsNothing | packages/lib/src/utils.ts:36-39 | a Saturday and the Sunday after it count for nothing |
| Auth.RequireAuth | apps/api/src/middleware/auth.ts:11-29 | a missing header or one without "Bearer " gives 401; a token the verifier rejects gives 401; next runs iff the header has the prefix and the token verifies, with userId and role taken from the payload |
| Auth.TokenFollowsPrefix | apps/api/src/middleware/auth.ts:18 | the token verified is the header with its seven-character prefix removed |
| Auth.RequireRole | apps/api/src/middleware/auth.ts:31-41 | 403 iff the context's role is not in the allowed list; otherwise the context passes through unchanged |
| Auth.Guard | apps/api/src/routes/employees.ts:9-10 | a request that passes both gates has one of the allowed roles, and an authentication failure is answered before the role check |
| Schema.RoundHalfAway | packages/database/src/schema.ts:143-145 | rounds to a nearest integer, keeps non-negative values non-negative and fixes integers; an exact half goes away from zero (up for non-negative input, down for negative) |
| Schema.Scale2 | packages/database/src/schema.ts:143-145 | a stored money value is whole cents, within half a cent of the input, unchanged when already whole cents, and non-negative for non-negative input; an exact half cent goes away from zero |
| Schema.Scale2Idempotent | packages/database/src/schema.ts:143-145 | storing a stored value again changes nothing |
| Schema.StoredTotalMatchesWholeCents | packages/database/src/schema.ts:143-145 | for a whole-cent amount and a non-negative fee, the rounded sum is the sum of the rounded parts |
| Schema.InsertAdvance | packages/database/src/schema.ts:130-161 | a new advance row defaults to pending, stamps requestedAt, holds whole-cent money and leaves every optional timestamp, reason and provider id empty |
| Schema.InsertTransaction | packages/database/src/schema.ts:167-182 | a new transaction row defaults to pending status and holds a whole-cent amount |
| Validators.ParseAdvanceStatus | packages/types/src/index.ts:100-107 | accepts exactly the six status names, and the parsed status writes back as the same name |
| Validators.StatusRoundTrip | packages/database/src/schema.ts:146-150 | every status survives being written to the column and parsed back |
| Validators.ParseTransactionType | packages/types/src/index.ts:135 | accepts exactly the three transaction types |
| Validators.ParseSettings | packages/types/src/index.ts:33-39 | rejected iff a given maxAdvancePercentage lies outside [0,100]; given fields are kept, missing ones take the defaults true, 50, 4, 4, 0 |
| Validators.ParsePayrollEntry | packages/types/src/index.ts:82-93 | accepted iff 0 ≤ daysWorked ≤ 31; missing deductions default to 0 |
| Validators.ParseLoginRequest | packages/types/src/index.ts:155-158 | accepted iff the PIN is exactly four characters |
| Validators.ParsePositive | packages/types/src/index.ts:168-171 | an amount or salary is accepted iff it is strictly positive, and then unchanged |
| Wrappers.OrElse | apps/api/src/routes/mpesa.ts:49 | JavaScript's or-operator on optional text: a present non-empty value wins, otherwise the fallback |
| AdvanceQueries.EarnedThisMonth | apps/api/src/routes/advances.ts:44-48 | earnings times the month length equal the salary times the day of the month; they lie between 0 and a non-negative salary, and equal the salary on the last day of the month |
| AdvanceQueries.EmployeeOfUser | apps/api/src/routes/advances.ts:27-33 | the employee found belongs to the user, and none is found iff no employee row has that user id |
| AdvanceQueries.EmployerById | apps/api/src/routes/advances.ts:36-42 | the employer found has the id, and none is found iff no employer row has it |
| AdvanceQueries.EmployerOfUser | apps/api/src/routes/employers.ts:77-83 | the employer found belongs to the user, and none is found iff no employer row has that user id |
| AdvanceQueries.EmployeeById | apps/api/src/routes/advances.ts:136-141 | the joined employee has the id, and none is found iff no employee row has it |
| AdvanceQueries.AdvanceById | apps/api/src/routes/advances.ts:136-145 | the advance found has the id, and none is found iff no advance row has it |
| AdvanceQueries.UpdateAdvance | apps/api/src/routes/employers.ts:255-261 | `update ... where id`: rows with the id are transformed and every other row is untouched |
| AdvanceQueries.UpdatedAdvanceFound | apps/api/src/routes/employers.ts:255-261 | after an update that keeps the id, looking the advance up finds the updated row |
| AdvanceQueries.UpdateAdvanceTwice | apps/api/src/routes/mpesa.ts:37-44 | repeating an id-keeping, idempotent update changes nothing more |
| AdvanceQueries.MonthAdvances | apps/api/src/routes/advances.ts:50-57 | the window holds exactly the employee's rows requested since the month began |
| AdvanceQueries.MonthAdvancesAppend | apps/api/src/routes/advances.ts:50-57 | a row of that employee requested this month, once appended, joins the end of the window |
| AdvanceQueries.MonthAdvancesIgnoresOthers | apps/api/src/routes/advances.ts:50-57 | another employee's row, or an older one, leaves the window alone |
| AdvanceQueries.ActiveAdvances | apps/api/src/routes/advances.ts:59-61 | holds exactly the rows that are neither cancelled nor failed |
| AdvanceQueries.SumTotals | apps/api/src/routes/advances.ts:63-66 | the fee-inclusive total of rows owing non-negative amounts is non-negative |
| AdvanceQueries.SumTotalsAppend | apps/api/src/routes/advances.ts:63-66 | the total is additive over concatenation |
| AdvanceQueries.ActiveStatuses | apps/api/src/routes/advances.ts:59-61 | of the six statuses, exactly pending, approved, disbursed and repaid count; cancelled and failed do not |
| AdvanceQueries.InactiveAdvanceIgnored | apps/api/src/routes/advances.ts:59-66 | a cancelled or failed advance changes neither the active rows nor their total |
| AdvanceQueries.ActiveAdvanceCounted | apps/api/src/routes/advances.ts:59-66 | an active advance adds one to the count and its totalAmount to the total |
| AdvanceQueries.InsertKeepsOrder | apps/api/src/routes/employees.ts:37 | inserting into a newest-first list keeps it newest first |
| AdvanceQueries.NewestFirst | apps/api/src/routes/employees.ts:37 | `orderBy desc(requestedAt)` yields a permutation of the rows ordered newest first |
| AdvanceQueries.NewestFirstMembers | apps/api/src/routes/employees.ts:37 | sorting neither adds nor drops a row |
| AdvanceQueries.ActiveInsert | apps/api/src/routes/employees.ts:48-50 | an inserted row adds its share to the active count and total wherever it lands |
| AdvanceQueries.ActiveNewestFirst | apps/api/src/routes/employees.ts:48-50 | the active count and total do not depend on the order of the rows |
| AdvanceQueries.EmployeeAdvances | apps/api/src/routes/employees.ts:35-36 | holds exactly the employee's rows |
| AdvanceQueries.MonthHoldsAllWhenRecent | apps/api/src/routes/advances.ts:50-57 | when all the employee's advances are from this month, the month window is all of them |
| AdvanceQueries.TakeKeepsNewest | apps/api/src/routes/employees.ts:37-38 | the first n rows of a newest-first list are at least as new as every row left out |
| AdvancesRoute.ErrorStatus | apps/api/src/routes/advances.ts:31-92 | 404 iff the employee or employer is missing; 500 iff settings are missing; 400 iff the amount is invalid, the gate refuses or the amount exceeds what is available |
| AdvancesRoute.Admission | apps/api/src/routes/advances.ts:59-125 | admitted iff active count < limit, active total < cap and amount ≤ cap − total; refusals come in that precedence with 400; the row has fee from the policy, amount, fee and total stored in cents, status approved with approvedAt iff auto-approve (else pending without approvedAt), and the matching message |
| AdvancesRoute.RequestAdvance | apps/api/src/routes/advances.ts:18-126 | a non-positive amount gives 400, a missing employee or employer 404, missing settings 500; a refusal changes nothing; a creation appends exactly the admitted row for the user's employee, decided on this month's advances; conversely, whenever the amount is positive and the employee, employer and settings exist, the outcome is exactly the admission decision on this month's advances |
| AdvancesRoute.RejectionStatusMatches | apps/api/src/routes/advances.ts:31-92 | every refusal carries the status its error is answered with |
| AdvancesRoute.AdmittedWithinCap | apps/api/src/routes/advances.ts:81-92 | an admitted principal fits under the cap together with the active total, and the count stays within the limit |
| AdvancesRoute.ExactlyAvailableIsAdmitted | apps/api/src/routes/advances.ts:81-92 | asking for exactly the available balance is admitted whenever the gate lets the employee in |
| AdvancesRoute.RequestKeepsMonthlyLimit | apps/api/src/routes/advances.ts:50-115 | after a creation the month's active advances number one more, still within the limit, and owe exactly the new row's total more |
| AdvancesRoute.InactiveAdvancesDoNotCount | apps/api/src/routes/advances.ts:59-61 | cancelled and failed advances never change the decision |
| AdvancesRoute.FeeMayCarryTotalPastCap | apps/api/src/routes/advances.ts:82-111 | the cap bounds principal only: 15000 on a 15000 cap is admitted and owes 15600 |
| AdvancesRoute.SubCentPrincipalBreaksTotal | apps/api/src/routes/advances.ts:95-111 | a 0.125 request stores amount 0.13, fee 0.01 and total 0.13, so total ≠ amount + fee |
| AdvancesRoute.WholeCentRequestKeepsTotal | apps/api/src/routes/advances.ts:95-111 | for a whole-cent request under a non-negative fee policy, stored total = stored amount + stored fee |
| AdvancesRoute.GetAdvance | apps/api/src/routes/advances.ts:132-156 | an unknown id gives 404; an advance whose joined employee is missing gives 500 with the null-read message; another user's advance gives 403 "Forbidden"; the advance is returned iff it exists and its employee is the signed-in user |
| EmployeesRoute.AvailableIsFlooredBalance | apps/api/src/routes/employees.ts:52-54 | the dashboard's three facts about the balance determine it as the floored difference |
| EmployeesRoute.GetDashboard | apps/api/src/routes/employees.ts:16-72 | 404 iff the user has no employee profile; otherwise the balance is ≥ 0 and ≥ half of earned minus the total and is one of them; the recent list is the employee's ten newest advances, newest first, and the total sums their active ones |
| EmployeesRoute.RecentTotalsNonNegative | apps/api/src/routes/employees.ts:35-50 | the advances the dashboard sums owe non-negative amounts when all stored advances do |
| EmployeesRoute.AvailableWithinHalfEarned | apps/api/src/routes/employees.ts:52-54 | the balance never exceeds half of what has been earned, for a non-negative salary and non-negative amounts due |
| EmployeesRoute.DashboardShowsTheNewest | apps/api/src/routes/employees.ts:35-39 | every advance left off the dashboard is no newer than every one shown |
| EmployeesRoute.RecentTotalIsMonthTotal | apps/api/src/routes/employees.ts:35-50 | with at most ten advances, all from this month, the dashboard total equals the request gate's active total |
| EmployeesRoute.DashboardAgreesWithRequestGate | apps/api/src/routes/employees.ts:41-54 | under those conditions and a 50% policy, the balance shown is the request gate's available balance floored at zero |
| EmployeesRoute.AdvanceHistory | apps/api/src/routes/employees.ts:78-100 | 404 iff no employee profile; otherwise a permutation of the employee's advances, duplicates included, ordered newest first |
| EmployersRoute.UserByPhone | apps/api/src/routes/employers.ts:98-101 | the user found has the phone number, and none is found iff no user has it |
| EmployersRoute.FirstWithNumber | apps/api/src/routes/employers.ts:85-88 | finds an employee with the number from any employer, and none iff no employee has it |
| EmployersRoute.NumberInEmployer | apps/api/src/routes/employers.ts:85 | finds the employer's employee with the number, and none iff the employer has no employee with it |
| EmployersRoute.AddEmployee | apps/api/src/routes/employers.ts:94-130 | both numbers are stored formatted; the user with the formatted phone is reused, or a new employee account is appended; exactly one employee row is appended with the input's fields, the caller's employer and the salary in cents |
| EmployersRoute.CreateEmployee | apps/api/src/routes/employers.ts:72-136 | a non-positive salary gives 400 and a missing employer 404; refused with 400 iff the first employee with that number, from any employer, belongs to the caller's employer; refusals change nothing |
| EmployersRoute.CreateEmployeeScoped | apps/api/src/routes/employers.ts:85-92 | the duplicate check as its comment intends: refused iff the caller's employer already has that number |
| EmployersRoute.ScopedCreateKeepsNumbersUnique | apps/api/src/routes/employers.ts:85-92 | the scoped create keeps employee numbers unique within each employer |
| EmployersRoute.DuplicateNumberSlipsThrough | apps/api/src/routes/employers.ts:85-92 | when another employer's employee with the number comes first, the create as written admits a duplicate within the caller's employer, which the scoped check refuses |
| EmployersRoute.DuplicateExample | apps/api/src/routes/employers.ts:85-92 | a concrete two-employer table of that shape exists |
| EmployersRoute.ListAdvances | apps/api/src/routes/employers.ts:178-206 | 404 iff no employer; otherwise a permutation of the employer's advances narrowed to the given non-empty status, duplicates included, ordered newest first |
| EmployersRoute.UnknownStatusListsNothing | apps/api/src/routes/employers.ts:193-195 | a status no advance can hold lists nothing |
| EmployersRoute.NoStatusListsAll | apps/api/src/routes/employers.ts:193-195 | with no status, or an empty one, every advance of the employer is listed |
| EmployersRoute.ApproveAdvance | apps/api/src/routes/employers.ts:255-261 | sets approved and approvedAt to now; the advance still counts, and no other field changes |
| EmployersRoute.PaymentFor | apps/api/src/routes/employers.ts:264-273 | the payment asks for the advance's amount, to the employee's M-Pesa number, with the advance id as reference |
| EmployersRoute.RecordConversation | apps/api/src/routes/employers.ts:275-281 | an accepted payment stores the conversation id and keeps the status |
| EmployersRoute.FailDisbursement | apps/api/src/routes/employers.ts:289-298 | a failed payment sets failed, failedAt and the reason, and the advance stops counting |
| EmployersRoute.RejectAdvance | apps/api/src/routes/employers.ts:314-322 | a rejection sets cancelled and the reason, and the advance stops counting |
| EmployersRoute.ApplyKeepsTerms | apps/api/src/routes/employers.ts:253-322 | no change touches id, owner, employer, money or request time, and every real change leaves the advance no longer pending |
| EmployersRoute.PatchTarget | apps/api/src/routes/employers.ts:222-251 | a missing employer or advance gives 404, another employer's advance 403, a non-pending one 400; it succeeds iff none of these hold, yielding the advance |
| EmployersRoute.Disburse | apps/api/src/routes/employers.ts:263-307 | an accepted send answers "initiated" and records the originator conversation id; a thrown send answers 500 with the error as details and marks the advance failed with that message |
| EmployersRoute.UpdateAdvanceStatus | apps/api/src/routes/employers.ts:212-329 | only the requested advance changes, and only when the request is valid and the ownership and status guards pass; refusals change nothing; reject records the reason or "Rejected by employer"; approval without payouts only approves; with payouts it disburses |
| EmployersRoute.PatchChangesOnlyPendingOwned | apps/api/src/routes/employers.ts:239-251 | a status change touches only the requested advance, and only when it was pending and the caller's |
| EmployersRoute.PatchKeepsTerms | apps/api/src/routes/employers.ts:253-322 | no status change alters identity, ownership, money or request time |
| EmployersRoute.PaymentCarriesAdvanceId | apps/api/src/routes/employers.ts:268-273 | every payment posted for an approval carries the advance id as its Occasion |
| EmployersRoute.NoSecondChange | apps/api/src/routes/employers.ts:248-251 | after an accepted change the advance is no longer pending, so repeating the request is refused with 400 |
| MpesaService.NewService | apps/api/src/services/mpesa.ts:39-45 | the production host iff the environment is "production", the sandbox host otherwise, and an empty cache |
| MpesaService.GetAccessToken | apps/api/src/services/mpesa.ts:48-77 | fetches iff the cache is not valid (token set, non-empty, now < expiry); a cached token is returned unchanged; a granted token is cached until now + 3,000,000 ms; a refusal throws the authentication error and leaves the cache alone |
| MpesaService.TokenReusedForFiftyMinutes | apps/api/src/services/mpesa.ts:50-52 | a token granted at t is reused without a fetch before t + 3,000,000 ms and refetched from then on |
| MpesaService.EmptyTokenIsRefetched | apps/api/src/services/mpesa.ts:50 | an empty cached token is never served |
| MpesaService.RoundIsNearest | apps/api/src/services/mpesa.ts:91 | no integer is closer to the amount than the rounded one |
| MpesaService.RemovePlus | apps/api/src/services/mpesa.ts:85 | no '+' remains, every other character of the input is kept, and an input without '+' is unchanged |
| MpesaService.RemovePlusAppend | apps/api/src/services/mpesa.ts:85 | the removal distributes over concatenation, so it works character by character and keeps the order |
| MpesaService.RemovePlusChar | apps/api/src/services/mpesa.ts:85 | a single '+' becomes empty, and any other single character is kept |
| MpesaService.Round | apps/api/src/services/mpesa.ts:91 | `Math.round`: the result is within half of the amount, and a tie goes up |
| MpesaService.CacheWindow | apps/api/src/services/mpesa.ts:50 | a cached token usable now was usable at every earlier moment, is never usable at its expiry instant, and nothing is usable without a non-empty token |
| MpesaService.PayloadPhone | apps/api/src/services/mpesa.ts:85 | the party-B number has no '+'; a leading 0, after the removal, is replaced by 254 and nothing else changes |
| MpesaService.PayloadPhoneOfFormatted | apps/api/src/services/mpesa.ts:85 | a stored formatted number reaches the provider as its digits, starting 254 |
| MpesaService.BuildPayload | apps/api/src/services/mpesa.ts:87-98 | the amount is the rounded request, party B the normalised phone, the result and timeout URLs the callback base plus /result and /timeout, and Occasion the reference |
| MpesaService.SendMoney | apps/api/src/services/mpesa.ts:80-116 | posts the built payload with the bearer token once a token is obtained; returns the provider's answer iff both calls succeed; any failure throws the provider's errorMessage or "Failed to send M-Pesa payment" |
| MpesaCallbacks.AdvanceByConversation | apps/api/src/routes/mpesa.ts:20-25 | a missing id matches nothing; otherwise the first advance storing that conversation id, and none iff no row stores it |
| MpesaCallbacks.TransactionId | apps/api/src/routes/mpesa.ts:34-41 | the first TransactionID parameter decides: its value is returned when present and non-empty, and none otherwise; without such a parameter, none; any value returned is a non-empty parameter value |
| MpesaCallbacks.MarkDisbursed | apps/api/src/routes/mpesa.ts:37-44 | sets disbursed, the transaction id and disbursedAt; the advance still counts, and no other field changes |
| MpesaCallbacks.Settle | apps/api/src/routes/mpesa.ts:32-57 | disbursed iff the result code is 0, failed otherwise; a success stamps disbursedAt and the transaction id; a failure records the provider's description when it gives a non-empty one and "M-Pesa transaction failed" otherwise; only status, disbursedAt, transaction id and reason can change |
| MpesaCallbacks.MarkFailed | apps/api/src/routes/mpesa.ts:51-57 | sets failed and the reason, and leaves failedAt as it was |
| MpesaCallbacks.HandleResult | apps/api/src/routes/mpesa.ts:8-67 | an unreadable body gets code 1 and no change; otherwise code 0; an unknown conversation id changes nothing; the matched advance is settled whatever its status, and the rest are untouched |
| MpesaCallbacks.HandleTimeout | apps/api/src/routes/mpesa.ts:70-102 | as for results, but the matched advance fails with "Transaction timed out" |
| MpesaCallbacks.HandleQueryCallback | apps/api/src/routes/mpesa.ts:105-126 | result code 0 iff the body is readable; the query callbacks change nothing |
| MpesaCallbacks.CallbacksTouchOnlyTheMatch | apps/api/src/routes/mpesa.ts:21-57 | only rows with the matched advance's id change, and no conversation id changes |
| MpesaCallbacks.SameMatchAfterUpdate | apps/api/src/routes/mpesa.ts:21-25 | an update that keeps ids and conversation ids matches the same advance again |
| MpesaCallbacks.SettleIdempotent | apps/api/src/routes/mpesa.ts:32-60 | settling twice with the same result is settling once, and keeps the id |
| MpesaCallbacks.ResultRedeliveryIsIdempotent | apps/api/src/routes/mpesa.ts:8-67 | delivering the same result twice at the same moment leaves the table as one delivery does |
| MpesaCallbacks.TimeoutRedeliveryIsIdempotent | apps/api/src/routes/mpesa.ts:70-102 | delivering the same timeout twice leaves the table as one delivery does |
| MpesaCallbacks.LateFailureOverridesDisbursement | apps/api/src/routes/mpesa.ts:47-57 | with no status guard, a failure or timeout after a disbursement turns the advance failed, and it stops counting |

## Left out

- JavaScript floating point: amounts are exact reals. `toFixed`, template rendering of numbers and `Intl.NumberFormat` (`formatCurrency`) are not modelled. Refusal reasons are structured values (`Calculations.Denial`), and `Calculations.DenialMessage` renders them through an uninterpreted `render` parameter, so it states no contract.
- The wall clock and time zones: "now", the day of the month, the month length and the month start are parameters, and weekdays are `(startWeekday + i) % 7` over whole-day numbers.
- The `createdAt`/`updatedAt` columns, the foreign key that the literal payroll period `'current'` would need, precision-12 overflow of the decimal columns, and the columns of tables no route in the core writes.
- Drizzle's handling of an `undefined` filter value: a callback with no conversation id is modelled as matching no row, as SQL `= NULL` does.
- A non-integer or non-numeric `ResultCode`: only integers are modelled, and "code 0" means the integer 0.
- An exception from the database inside a callback handler: only a body classed as `MpesaCallbacks.CallbackBody.Malformed` leads to the result-code-1 answer.
- A readable result body whose `ResultParameter` is not an array or holds a null entry before its first `TransactionID` entry is not given its own shape. With result code 0 and a stored advance, the lookup of the transaction id throws and the answer is code 1 with no change, so such a body is represented as `Malformed`; with any other code the parameters are never read, so it is a `Body` with any parameter list.
- Zod's issue lists: a malformed body is answered 400 with the fixed `InvalidBody` text, and only the validations the routes depend on (positive amount and salary, the PATCH status enum) are modelled.
- `queryTransactionStatus` only builds a payload and posts it. `generateSecurityCredential` is a placeholder. The `getMpesaService` singleton reads the environment. The payroll routes are stubs. The employer dashboard, `GET /employers/employees` and bulk upload are outside the advance logic.
- `MPESA_ENABLED` is the `mpesaEnabled` parameter of the PATCH model. Configuration errors raised by `getMpesaService` are not modelled.
- `hashPin` and `verifyToken`: the default PIN hash and the token verifier are parameters. bcrypt and JWT are foreign libraries.
- Console logging, the UI, device APIs, and concurrency: each handler is one atomic step.
- Calculations.EarnedToDate: requires a non-zero number of days in the month; JavaScript would divide by zero and return Infinity or NaN.
- MpesaService.GetAccessToken: the expiry is computed from the same `now` as the cache test, whereas the code reads the clock again after the fetch returns.
- AdvancesRoute.GetAdvance: the joined `employee` object returned alongside the advance is not part of the reply.
- EmployersRoute.ListAdvances: the joined `employee` object returned alongside each advance is not part of the reply.
- Validators.ParseLoginRequest: the PIN length counts Dafny characters, whereas the schema's `.length(4)` counts UTF-16 code units, so a PIN with a character outside the Basic Multilingual Plane is measured differently.
- Schema.Settings: `maxAdvancesPerMonth` is an integer, whereas the settings schema accepts any number, so a fractional monthly limit is not modelled.
- AdvanceQueries.NewestFirst: advances requested at the same moment keep a fixed relative order, whereas `ORDER BY requested_at DESC` leaves ties in any order; with such ties the dashboard's ten latest advances are one of the choices the database may make.
- EmployersRoute.CreateEmployee: `hireDate` is a timestamp, so an unparseable hire-date string is not modelled. In the code, `new Date(...)` turns it into an invalid date, and the employee insert throws. The answer is 500, and a user account created just before stays behind without an employee row.
- EmployersRoute.Disburse: the provider's accepted reply always carries an originator conversation id. In the code, a reply without one makes the update that stores the id have no values to set, which throws. The catch then marks the advance failed and answers 500, although the payment was initiated; the model always records the id and answers "initiated".
- EmployeesRoute.GetDashboard: the reply's projection of the employee (id, names, salary as a number) is the whole employee row.

## Findings

| source | as written | input that shows it | evidently intended | confidence | as-written member | corrected member |
|---|---|---|---|---|---|---|
| apps/api/src/routes/employers.ts:85-92 | the duplicate check loads the first employee with the number from any employer, then refuses only if that one belongs to the caller's employer | employees [employer B's E7, employer A's E7]; employer A creates another E7; the first match is B's, so the create succeeds and A has two E7 | refuse whenever the caller's employer already has an employee with that number, as the comment above the check says | not executed | EmployersRoute.DuplicateNumberSlipsThrough | EmployersRoute.ScopedCreateKeepsNumbersUnique |

=== FILE: advance_queries.dfy ===
/**
 * Queries over the advances table shared by the routes: the active-status filter,
 * the fee-inclusive total, the this-month window and newest-first ordering.
 */
module AdvanceQueries {
  import opened Wrappers
  import opened Schema
  import opened Tables
  import Calculations

  /**
   * The clock reading a request is served at: the current instant, the day of the
   * month, the length of the month and the instant the month began.
   */
  datatype Today = Today(now: Timestamp, dayOfMonth: int, daysInMonth: int, firstDayOfMonth: Timestamp)

  /** What a calendar can produce. */
  predicate ValidToday(t: Today) {
    28 <= t.daysInMonth <= 31 && 1 <= t.dayOfMonth <= t.daysInMonth && t.firstDayOfMonth <= t.now
  }

  /** The simplified earned-to-date both employee routes use: salary pro rata by calendar day. */
  function EarnedThisMonth(salary: Money, today: Today): (r: Money)
    requires ValidToday(today)
    ensures salary >= 0.0 ==> 0.0 <= r <= salary
    ensures r * (today.daysInMonth as real) == salary * (today.dayOfMonth as real)
    ensures today.dayOfMonth == today.daysInMonth ==> r == salary
  {
    if salary >= 0.0 then
      Calculations.EarnedWithinSalary(salary, today.dayOfMonth as real, today.daysInMonth as real);
      Calculations.EarnedToDate(salary, today.dayOfMonth as real, today.daysInMonth as real)
    else
      Calculations.EarnedToDate(salary, today.dayOfMonth as real, today.daysInMonth as real)
  }

  /** The employee profile of a user: the first employee row with that user id. */
  function EmployeeOfUser(db: Db, userId: string): (r: Option<Employee>)
    ensures r.Some? ==> r.value in db.employees && r.value.userId == userId
    ensures r.None? <==> forall i :: 0 <= i < |db.employees| ==> db.employees[i].userId != userId
  {
    FindFirst(db.employees, (e: Employee) => e.userId == userId)
  }

  /** The employee row with a given id. */
  function EmployeeById(db: Db, id: string): (r: Option<Employee>)
    ensures r.Some? ==> r.value in db.employees && r.value.id == id
    ensures r.None? <==> forall i :: 0 <= i < |db.employees| ==> db.employees[i].id != id
  {
    FindFirst(db.employees, (e: Employee) => e.id == id)
  }

  /** The employer row with a given id. */
  function EmployerById(db: Db, id: string): (r: Option<Employer>)
    ensures r.Some? ==> r.value in db.employers && r.value.id == id
    ensures r.None? <==> forall i :: 0 <= i < |db.employers| ==> db.employers[i].id != id
  {
    FindFirst(db.employers, (e: Employer) => e.id == id)
  }

  /** The employer account of a user: the first employer row with that user id. */
  function EmployerOfUser(db: Db, userId: string): (r: Option<Employer>)
    ensures r.Some? ==> r.value in db.employers && r.value.userId == userId
    ensures r.None? <==> forall i :: 0 <= i < |db.employers| ==> db.employers[i].userId != userId
  {
    FindFirst(db.employers, (e: Employer) => e.userId == userId)
  }

  /** The advance row with a given id. */
  function AdvanceById(rows: seq<Advance>, id: string): (r: Option<Advance>)
    ensures r.Some? ==> r.value in rows && r.value.id == id
    ensures r.None? <==> forall i :: 0 <= i < |rows| ==> rows[i].id != id
  {
    FindFirst(rows, (a: Advance) => a.id == id)
  }

  function AdvanceKey(a: Advance): string {
    a.id
  }

  /** `update advances set ... where id = id`: `f` applied to the rows with that id, every other row untouched. */
  function UpdateAdvance(rows: seq<Advance>, id: string, f: Advance -> Advance): (r: seq<Advance>)
    ensures |r| == |rows|
    ensures forall i :: 0 <= i < |rows| ==> r[i] == if rows[i].id == id then f(rows[i]) else rows[i]
  {
    UpdateWhere(rows, AdvanceKey, id, f)
  }

  /** After an update that keeps the id, looking the advance up finds the updated first row. */
  lemma UpdatedAdvanceFound(rows: seq<Advance>, id: string, f: Advance -> Advance)
    requires AdvanceById(rows, id).Some?
    requires f(AdvanceById(rows, id).value).id == id
    ensures AdvanceById(UpdateAdvance(rows, id, f), id) == Some(f(AdvanceById(rows, id).value))
  {
    var p := (a: Advance) => a.id == id;
    var r := UpdateAdvance(rows, id, f);
    var k := FirstIndex(rows, p);
    assert AdvanceById(rows, id) == Some(rows[k]);
    forall j | 0 <= j < k
      ensures !p(r[j])
    {
      assert r[j] == rows[j];
    }
    assert r[k] == f(rows[k]);
    FindFirstAt(r, p, k);
  }

  /** Repeating an update that keeps ids and is idempotent on each row changes nothing more. */
  lemma UpdateAdvanceTwice(rows: seq<Advance>, id: string, f: Advance -> Advance)
    requires forall a :: f(a).id == a.id && f(f(a)) == f(a)
    ensures UpdateAdvance(UpdateAdvance(rows, id, f), id, f) == UpdateAdvance(rows, id, f)
  {
    var once := UpdateAdvance(rows, id, f);
    var twice := UpdateAdvance(once, id, f);
    forall i | 0 <= i < |rows|
      ensures twice[i] == once[i]
    {
      assert once[i].id == rows[i].id;
    }
  }

  /** The advances of `employeeId` requested since the month began, in table order. */
  function MonthAdvances(rows: seq<Advance>, employeeId: string, monthStart: Timestamp): (r: seq<Advance>)
    ensures forall i :: 0 <= i < |r| ==> r[i] in rows && r[i].employeeId == employeeId && r[i].requestedAt >= monthStart
    ensures forall i :: 0 <= i < |rows| && rows[i].employeeId == employeeId && rows[i].requestedAt >= monthStart ==>
              rows[i] in r
  {
    Filter(rows, (a: Advance) => a.employeeId == employeeId && a.requestedAt >= monthStart)
  }

  /** A row of that employee requested this month, appended to the table, is appended to the window. */
  lemma MonthAdvancesAppend(rows: seq<Advance>, employeeId: string, monthStart: Timestamp, x: Advance)
    requires x.employeeId == employeeId && x.requestedAt >= monthStart
    ensures MonthAdvances(rows + [x], employeeId, monthStart) == MonthAdvances(rows, employeeId, monthStart) + [x]
  {
    var p := (a: Advance) => a.employeeId == employeeId && a.requestedAt >= monthStart;
    FilterAppend(rows, [x], p);
    FilterKeepsAll([x], p);
  }

  /** A row of any other employee, or from before the month, leaves the window alone. */
  lemma MonthAdvancesIgnoresOthers(rows: seq<Advance>, employeeId: string, monthStart: Timestamp, x: Advance)
    requires x.employeeId != employeeId || x.requestedAt < monthStart
    ensures MonthAdvances(rows + [x], employeeId, monthStart) == MonthAdvances(rows, employeeId, monthStart)
  {
    var p := (a: Advance) => a.employeeId == employeeId && a.requestedAt >= monthStart;
    FilterIgnoresRejected(rows, x, p);
  }

  /** An advance still holds its share of the monthly budget unless it was cancelled or failed. */
  predicate IsActive(a: Advance) {
    a.status != Cancelled && a.status != Failed
  }

  /** Of the six statuses, exactly pending, approved, disbursed and repaid advances count. */
  lemma ActiveStatuses(a: Advance)
    ensures IsActive(a) <==> a.status in {Pending, Approved, Disbursed, Repaid}
    ensures !IsActive(a) <==> a.status in {Cancelled, Failed}
  {
  }

  /** The advances that count towards the monthly limits. */
  function ActiveAdvances(rows: seq<Advance>): (r: seq<Advance>)
    ensures forall i :: 0 <= i < |r| ==> r[i].status != Cancelled && r[i].status != Failed && r[i] in rows
    ensures forall i :: 0 <= i < |rows| && IsActive(rows[i]) ==> rows[i] in r
  {
    Filter(rows, IsActive)
  }

  /** The fee-inclusive total of `rows`: the sum of their `totalAmount`. */
  function SumTotals(rows: seq<Advance>): (r: Money)
    ensures (forall i :: 0 <= i < |rows| ==> rows[i].totalAmount >= 0.0) ==> r >= 0.0
  {
    if |rows| == 0 then 0.0 else rows[0].totalAmount + SumTotals(rows[1..])
  }

  /** Sums add up over concatenation. */
  lemma {:induction false} SumTotalsAppend(a: seq<Advance>, b: seq<Advance>)
    ensures SumTotals(a + b) == SumTotals(a) + SumTotals(b)
  {
    if |a| == 0 {
      assert a + b == b;
    } else {
      assert (a + b)[1..] == a[1..] + b;
      SumTotalsAppend(a[1..], b);
    }
  }

  /** An inactive advance added to the table changes neither the active count nor the active total. */
  lemma InactiveAdvanceIgnored(rows: seq<Advance>, x: Advance)
    requires !IsActive(x)
    ensures ActiveAdvances(rows + [x]) == ActiveAdvances(rows)
    ensures SumTotals(ActiveAdvances(rows + [x])) == SumTotals(ActiveAdvances(rows))
  {
    FilterIgnoresRejected(rows, x, IsActive);
  }

  /** An active advance added to the table raises the active count by one and the total by its amount due. */
  lemma ActiveAdvanceCounted(rows: seq<Advance>, x: Advance)
    requires IsActive(x)
    ensures |ActiveAdvances(rows + [x])| == |ActiveAdvances(rows)| + 1
    ensures SumTotals(ActiveAdvances(rows + [x])) == SumTotals(ActiveAdvances(rows)) + x.totalAmount
  {
    var before := Filter(rows, IsActive);
    FilterAppend(rows, [x], IsActive);
    FilterKeepsAll([x], IsActive);
    assert Filter(rows + [x], IsActive) == before + [x];
    SumTotalsAppend(before, [x]);
    assert SumTotals([x]) == x.totalAmount + SumTotals([]);
  }

  /** `rows` are ordered newest first by request time. */
  predicate NewestFirstOrder(rows: seq<Advance>) {
    forall i, j :: 0 <= i < j < |rows| ==> rows[i].requestedAt >= rows[j].requestedAt
  }

  /** Inserts `a` into a newest-first list, after every row at least as new. */
  function Insert(a: Advance, sorted: seq<Advance>): (r: seq<Advance>)
    ensures multiset(r) == multiset(sorted) + multiset{a}
    ensures |r| == |sorted| + 1
    ensures forall k :: 0 <= k < |r| ==> r[k] == a || r[k] in sorted
  {
    if |sorted| == 0 then [a]
    else if a.requestedAt >= sorted[0].requestedAt then [a] + sorted
    else
      assert sorted == [sorted[0]] + sorted[1..];
      [sorted[0]] + Insert(a, sorted[1..])
  }

  /** Inserting into a newest-first list keeps it newest first. */
  lemma {:induction false} InsertKeepsOrder(a: Advance, sorted: seq<Advance>)
    requires NewestFirstOrder(sorted)
    ensures NewestFirstOrder(Insert(a, sorted))
  {
    if |sorted| > 0 && a.requestedAt < sorted[0].requestedAt {
      var rest := Insert(a, sorted[1..]);
      InsertKeepsOrder(a, sorted[1..]);
      forall k | 0 <= k < |rest|
        ensures rest[k].requestedAt <= sorted[0].requestedAt
      {
        if rest[k] != a {
          var m :| 0 <= m < |sorted[1..]| && sorted[1..][m] == rest[k];
          assert sorted[1..][m] == sorted[m + 1];
        }
      }
      assert Insert(a, sorted) == [sorted[0]] + rest;
    }
  }

  /** `orderBy desc(requestedAt)`: the same rows, newest first. */
  function NewestFirst(rows: seq<Advance>): (r: seq<Advance>)
    ensures NewestFirstOrder(r)
    ensures multiset(r) == multiset(rows)
    ensures |r| == |rows|
  {
    if |rows| == 0 then []
    else
      assert rows == [rows[0]] + rows[1..];
      var rest := NewestFirst(rows[1..]);
      InsertKeepsOrder(rows[0], rest);
      Insert(rows[0], rest)
  }
  /** Sorting neither adds nor drops a row. */
  lemma NewestFirstMembers(rows: seq<Advance>)
    ensures forall a :: a in NewestFirst(rows) <==> a in rows
  {
    var sorted := NewestFirst(rows);
    forall a
      ensures a in sorted <==> a in rows
    {
      assert a in sorted <==> a in multiset(sorted);
      assert a in rows <==> a in multiset(rows);
    }
  }


  /** A row placed in front of others adds its share to their active count and total. */
  lemma ActiveCons(x: Advance, rest: seq<Advance>)
    ensures |ActiveAdvances([x] + rest)| == |ActiveAdvances([x])| + |ActiveAdvances(rest)|
    ensures SumTotals(ActiveAdvances([x] + rest)) == SumTotals(ActiveAdvances([x])) + SumTotals(ActiveAdvances(rest))
  {
    FilterAppend([x], rest, IsActive);
    SumTotalsAppend(ActiveAdvances([x]), ActiveAdvances(rest));
  }

  /** The first row of a table adds its share to the active count and total of the rest. */
  lemma ActiveFront(rows: seq<Advance>)
    requires |rows| > 0
    ensures |ActiveAdvances(rows)| == |ActiveAdvances([rows[0]])| + |ActiveAdvances(rows[1..])|
    ensures SumTotals(ActiveAdvances(rows)) == SumTotals(ActiveAdvances([rows[0]])) + SumTotals(ActiveAdvances(rows[1..]))
  {
    assert rows == [rows[0]] + rows[1..];
    ActiveCons(rows[0], rows[1..]);
  }

  /** Sorting a non-empty table inserts its first row into the sorted rest. */
  lemma NewestFirstFront(rows: seq<Advance>)
    requires |rows| > 0
    ensures NewestFirst(rows) == Insert(rows[0], NewestFirst(rows[1..]))
  {
  }

  /** Inserting a row adds its share to the active count and total, wherever it lands. */
  lemma {:induction false} ActiveInsert(a: Advance, sorted: seq<Advance>)
    ensures |ActiveAdvances(Insert(a, sorted))| == |ActiveAdvances([a])| + |ActiveAdvances(sorted)|
    ensures SumTotals(ActiveAdvances(Insert(a, sorted))) == SumTotals(ActiveAdvances([a])) + SumTotals(ActiveAdvances(sorted))
  {
    if |sorted| == 0 {
      assert Insert(a, sorted) == [a] + sorted;
    } else if a.requestedAt >= sorted[0].requestedAt {
      assert Insert(a, sorted) == [a] + sorted;
      ActiveCons(a, sorted);
    } else {
      var tail := sorted[1..];
      var rest := Insert(a, tail);
      assert Insert(a, sorted) == [sorted[0]] + rest;
      assert sorted == [sorted[0]] + tail;
      ActiveInsert(a, tail);
      ActiveCons(sorted[0], rest);
      ActiveCons(sorted[0], tail);
    }
  }

  /** The active count and total do not depend on the order rows are listed in. */
  lemma {:induction false} ActiveNewestFirst(rows: seq<Advance>)
    ensures |ActiveAdvances(NewestFirst(rows))| == |ActiveAdvances(rows)|
    ensures SumTotals(ActiveAdvances(NewestFirst(rows))) == SumTotals(ActiveAdvances(rows))
  {
    if |rows| > 0 {
      NewestFirstFront(rows);
      ActiveNewestFirst(rows[1..]);
      ActiveInsert(rows[0], NewestFirst(rows[1..]));
      ActiveFront(rows);
    }
  }

  /** The advances of one employee, in table order. */
  function EmployeeAdvances(rows: seq<Advance>, employeeId: string): (r: seq<Advance>)
    ensures forall i :: 0 <= i < |r| ==> r[i] in rows && r[i].employeeId == employeeId
    ensures forall i :: 0 <= i < |rows| && rows[i].employeeId == employeeId ==> rows[i] in r
  {
    Filter(rows, (a: Advance) => a.employeeId == employeeId)
  }

  /** When every advance of the employee was requested this month, the month window holds them all. */
  lemma MonthHoldsAllWhenRecent(rows: seq<Advance>, employeeId: string, monthStart: Timestamp)
    requires forall i :: 0 <= i < |rows| && rows[i].employeeId == employeeId ==> rows[i].requestedAt >= monthStart
    ensures MonthAdvances(rows, employeeId, monthStart) == EmployeeAdvances(rows, employeeId)
  {
    FilterAgrees(rows,
                 (a: Advance) => a.employeeId == employeeId && a.requestedAt >= monthStart,
                 (a: Advance) => a.employeeId == employeeId);
  }

  /** The first `n` rows of a newest-first list are at least as new as every row after them. */
  lemma TakeKeepsNewest(sorted: seq<Advance>, n: nat)
    requires NewestFirstOrder(sorted)
    ensures forall i, j :: 0 <= i < |Take(sorted, n)| <= j < |sorted| ==>
              Take(sorted, n)[i].requestedAt >= sorted[j].requestedAt
  {
  }
}

=== FILE: advances_route.dfy ===
/**
 * The employee-facing advance routes: requesting an advance (validation, the
 * eligibility gate, the available-balance check, the fee and the stored row) and
 * reading one advance back with its ownership check.
 */
module AdvancesRoute {
  import opened Wrappers
  import opened Schema
  import opened Tables
  import opened Calculations
  import opened AdvanceQueries

  /** Why a request for an advance was refused. */
  datatype RequestError =
    | InvalidAmount
    | EmployeeNotFound
    | EmployerNotFound
    | SettingsMissing
    | Refused(denial: Denial)
    | ExceedsAvailable(available: real)

  /** The HTTP status each refusal is answered with; a missing settings object throws, which the framework answers with 500. */
  function ErrorStatus(e: RequestError): (code: int)
    ensures code == 404 <==> e.EmployeeNotFound? || e.EmployerNotFound?
    ensures code == 500 <==> e.SettingsMissing?
    ensures code == 400 <==> e.InvalidAmount? || e.Refused? || e.ExceedsAvailable?
  {
    match e
    case InvalidAmount => 400
    case EmployeeNotFound => 404
    case EmployerNotFound => 404
    case SettingsMissing => 500
    case Refused(_) => 400
    case ExceedsAvailable(_) => 400
  }

  /** The answer to a request: the stored advance and a message, or a status and a refusal. */
  datatype RequestOutcome = Created(advance: Advance, message: string) | Rejected(code: int, error: RequestError)

  const AutoApprovedMessage := "Advance approved! Money will be sent to your M-Pesa shortly."
  const SubmittedMessage := "Advance request submitted for approval."

  /** The payroll period every new advance is filed under. */
  const CurrentPeriod := "current"

  /** How many of the month's advances still count, and how much they owe in total. */
  function ActiveCount(monthAdvances: seq<Advance>): nat {
    |ActiveAdvances(monthAdvances)|
  }

  function ActiveTotal(monthAdvances: seq<Advance>): Money {
    SumTotals(ActiveAdvances(monthAdvances))
  }

  /** The cap on this month's advances: the employer's percentage of what has been earned so far. */
  function Cap(employee: Employee, settings: Settings, today: Today): Money
    requires ValidToday(today)
  {
    MaxAdvance(EarnedThisMonth(employee.monthlySalary, today), settings.maxAdvancePercentage)
  }

  /**
   * The decision on a positive `amount`, given the employee, the employer's policy and
   * the employee's advances of this month: the count limit first, then the cap, then
   * the available balance; an admitted request yields the row to insert.
   */
  function Admission(
    employee: Employee, settings: Settings, monthAdvances: seq<Advance>,
    amount: real, today: Today, newId: string): (r: RequestOutcome)
    requires ValidToday(today)
    ensures r.Created? <==>
              ActiveCount(monthAdvances) < settings.maxAdvancesPerMonth &&
              ActiveTotal(monthAdvances) < Cap(employee, settings, today) &&
              amount <= Cap(employee, settings, today) - ActiveTotal(monthAdvances)
    ensures ActiveCount(monthAdvances) >= settings.maxAdvancesPerMonth ==>
              r == Rejected(400, Refused(TooManyAdvances(settings.maxAdvancesPerMonth)))
    ensures ActiveCount(monthAdvances) < settings.maxAdvancesPerMonth &&
            ActiveTotal(monthAdvances) >= Cap(employee, settings, today) ==>
              r == Rejected(400, Refused(CapReached(settings.maxAdvancePercentage)))
    ensures ActiveCount(monthAdvances) < settings.maxAdvancesPerMonth &&
            ActiveTotal(monthAdvances) < Cap(employee, settings, today) &&
            amount > Cap(employee, settings, today) - ActiveTotal(monthAdvances) ==>
              r == Rejected(400, ExceedsAvailable(Cap(employee, settings, today) - ActiveTotal(monthAdvances)))
    ensures r.Created? ==>
              var a := r.advance;
              var fee := AdvanceFee(amount, settings.feePercentage, settings.flatFee);
              a.id == newId && a.employeeId == employee.id && a.employerId == employee.employerId &&
              a.payrollPeriodId == CurrentPeriod &&
              a.amount == Scale2(amount) && a.fee == Scale2(fee) && a.totalAmount == Scale2(amount + fee) &&
              a.requestedAt == today.now && IsActive(a)
    ensures r.Created? ==>
              (settings.autoApproveAdvances <==> r.advance.status == Approved) &&
              (settings.autoApproveAdvances ==> r.advance.approvedAt == Some(today.now) && r.message == AutoApprovedMessage) &&
              (!settings.autoApproveAdvances ==>
                 r.advance.status == Pending && r.advance.approvedAt.None? && r.message == SubmittedMessage)
    ensures r.Created? ==> r.advance.disbursedAt.None? && r.advance.failedAt.None? && r.advance.mpesaConversationId.None?
  {
    var earned := EarnedThisMonth(employee.monthlySalary, today);
    var active := ActiveAdvances(monthAdvances);
    var total := SumTotals(active);
    var eligibility := CanRequestAdvance(|active|, settings.maxAdvancesPerMonth, earned, total, settings.maxAdvancePercentage);
    if !eligibility.canRequest then
      Rejected(400, Refused(eligibility.reason.value))
    else
      var available := MaxAdvance(earned, settings.maxAdvancePercentage) - total;
      if amount > available then
        Rejected(400, ExceedsAvailable(available))
      else
        var fee := AdvanceFee(amount, settings.feePercentage, settings.flatFee);
        var auto := settings.autoApproveAdvances;
        var row := InsertAdvance(
          newId, employee.id, employee.employerId, CurrentPeriod, amount, fee, amount + fee,
          Some(if auto then Approved else Pending), if auto then Some(today.now) else None, today.now);
        Created(row, if auto then AutoApprovedMessage else SubmittedMessage)
  }

  /** A request and the database after it. */
  datatype RequestStep = RequestStep(outcome: RequestOutcome, db: Db)

  /**
   * `POST /advances/request` for the signed-in `userId`: the amount must be positive;
   * the user's employee profile and its employer must exist and the employer must
   * have settings; then the admission decision, and an admitted row is appended.
   */
  function RequestAdvance(db: Db, userId: string, amount: real, today: Today, newId: string): (r: RequestStep)
    requires ValidToday(today)
    ensures amount <= 0.0 ==> r.outcome == Rejected(400, InvalidAmount)
    ensures amount > 0.0 && EmployeeOfUser(db, userId).None? ==> r.outcome == Rejected(404, EmployeeNotFound)
    ensures amount > 0.0 && EmployeeOfUser(db, userId).Some? &&
            EmployerById(db, EmployeeOfUser(db, userId).value.employerId).None? ==>
              r.outcome == Rejected(404, EmployerNotFound)
    ensures amount > 0.0 && EmployeeOfUser(db, userId).Some? &&
            EmployerById(db, EmployeeOfUser(db, userId).value.employerId).Some? &&
            EmployerById(db, EmployeeOfUser(db, userId).value.employerId).value.settings.None? ==>
              r.outcome == Rejected(500, SettingsMissing)
    ensures r.outcome.Rejected? ==> r.db == db
    ensures r.outcome.Created? ==>
              amount > 0.0 &&
              EmployeeOfUser(db, userId).Some? &&
              r.outcome.advance.employeeId == EmployeeOfUser(db, userId).value.id &&
              r.db == db.(advances := db.advances + [r.outcome.advance])
    ensures r.outcome.Created? ==>
              var e := EmployeeOfUser(db, userId).value;
              var employer := EmployerById(db, e.employerId);
              employer.Some? && employer.value.settings.Some? &&
              r.outcome == Admission(e, employer.value.settings.value,
                                     MonthAdvances(db.advances, e.id, today.firstDayOfMonth), amount, today, newId)
    ensures amount > 0.0 && EmployeeOfUser(db, userId).Some? &&
            EmployerById(db, EmployeeOfUser(db, userId).value.employerId).Some? &&
            EmployerById(db, EmployeeOfUser(db, userId).value.employerId).value.settings.Some? ==>
              var e := EmployeeOfUser(db, userId).value;
              var settings := EmployerById(db, e.employerId).value.settings.value;
              r.outcome == Admission(e, settings, MonthAdvances(db.advances, e.id, today.firstDayOfMonth), amount, today, newId)
  {
    if amount <= 0.0 then RequestStep(Rejected(400, InvalidAmount), db)
    else match EmployeeOfUser(db, userId)
      case None => RequestStep(Rejected(404, EmployeeNotFound), db)
      case Some(employee) =>
        match EmployerById(db, employee.employerId)
        case None => RequestStep(Rejected(404, EmployerNotFound), db)
        case Some(employer) =>
          match employer.settings
          case None => RequestStep(Rejected(500, SettingsMissing), db)
          case Some(settings) =>
            var monthAdvances := MonthAdvances(db.advances, employee.id, today.firstDayOfMonth);
            var outcome := Admission(employee, settings, monthAdvances, amount, today, newId);
            if outcome.Created? then RequestStep(outcome, db.(advances := db.advances + [outcome.advance]))
            else RequestStep(outcome, db)
  }

  /** Every refusal carries the status its error is answered with. */
  lemma RejectionStatusMatches(db: Db, userId: string, amount: real, today: Today, newId: string)
    requires ValidToday(today)
    ensures var o := RequestAdvance(db, userId, amount, today, newId).outcome;
            o.Rejected? ==> o.code == ErrorStatus(o.error)
  {
  }

  /** An admitted principal fits in what was still available: the active total plus the principal stays within the cap. */
  lemma AdmittedWithinCap(
    employee: Employee, settings: Settings, monthAdvances: seq<Advance>,
    amount: real, today: Today, newId: string)
    requires ValidToday(today)
    requires Admission(employee, settings, monthAdvances, amount, today, newId).Created?
    ensures ActiveTotal(monthAdvances) + amount <= Cap(employee, settings, today)
    ensures ActiveCount(monthAdvances) + 1 <= settings.maxAdvancesPerMonth
  {
  }

  /** Asking for exactly the available balance is admitted, when the gate lets the employee in at all. */
  lemma ExactlyAvailableIsAdmitted(
    employee: Employee, settings: Settings, monthAdvances: seq<Advance>, today: Today, newId: string)
    requires ValidToday(today)
    requires ActiveCount(monthAdvances) < settings.maxAdvancesPerMonth
    requires ActiveTotal(monthAdvances) < Cap(employee, settings, today)
    ensures Admission(employee, settings, monthAdvances,
                      Cap(employee, settings, today) - ActiveTotal(monthAdvances), today, newId).Created?
  {
  }

  /**
   * After an admitted request the employee's active advances of the month number at most
   * the employer's limit, and their total grew by exactly the stored amount due.
   */
  lemma RequestKeepsMonthlyLimit(db: Db, userId: string, amount: real, today: Today, newId: string)
    requires ValidToday(today)
    requires RequestAdvance(db, userId, amount, today, newId).outcome.Created?
    ensures var step := RequestAdvance(db, userId, amount, today, newId);
            var e := EmployeeOfUser(db, userId).value;
            var settings := EmployerById(db, e.employerId).value.settings.value;
            var before := MonthAdvances(db.advances, e.id, today.firstDayOfMonth);
            var after := MonthAdvances(step.db.advances, e.id, today.firstDayOfMonth);
            ActiveCount(after) == ActiveCount(before) + 1 <= settings.maxAdvancesPerMonth &&
            ActiveTotal(after) == ActiveTotal(before) + step.outcome.advance.totalAmount
  {
    var step := RequestAdvance(db, userId, amount, today, newId);
    var e := EmployeeOfUser(db, userId).value;
    var a := step.outcome.advance;
    var before := MonthAdvances(db.advances, e.id, today.firstDayOfMonth);
    MonthAdvancesAppend(db.advances, e.id, today.firstDayOfMonth, a);
    ActiveAdvanceCounted(before, a);
  }

  /** Cancelled and failed advances give their share of the month back: they never change the decision. */
  lemma InactiveAdvancesDoNotCount(
    employee: Employee, settings: Settings, monthAdvances: seq<Advance>, x: Advance,
    amount: real, today: Today, newId: string)
    requires ValidToday(today)
    requires !IsActive(x)
    ensures Admission(employee, settings, monthAdvances + [x], amount, today, newId) ==
            Admission(employee, settings, monthAdvances, amount, today, newId)
  {
    InactiveAdvanceIgnored(monthAdvances, x);
  }

  /**
   * The cap bounds principal, not the amount due: with a 60,000 salary on day 15 of a
   * 30-day month at the default policy, 15,000 is admitted and 15,600 becomes owed,
   * beyond the 15,000 cap.
   */
  lemma FeeMayCarryTotalPastCap(employee: Employee, today: Today, newId: string)
    requires employee.monthlySalary == 60000.0
    requires today.dayOfMonth == 15 && today.daysInMonth == 30 && today.firstDayOfMonth <= today.now
    ensures Cap(employee, DefaultSettings, today) == 15000.0
    ensures var r := Admission(employee, DefaultSettings, [], 15000.0, today, newId);
            r.Created? && r.advance.fee == 600.0 && r.advance.totalAmount == 15600.0 &&
            r.advance.totalAmount > Cap(employee, DefaultSettings, today)
  {
    assert Scale2(600.0) == 600.0;
    assert Scale2(15600.0) == 15600.0;
  }

  /**
   * Money columns are rounded one by one, so a sub-cent principal can leave
   * `totalAmount` different from `amount + fee`: 0.125 at 4% stores 0.13, 0.01 and 0.13.
   */
  lemma SubCentPrincipalBreaksTotal(employee: Employee, today: Today, newId: string)
    requires employee.monthlySalary == 60000.0
    requires today.dayOfMonth == 15 && today.daysInMonth == 30 && today.firstDayOfMonth <= today.now
    ensures var r := Admission(employee, DefaultSettings, [], 0.125, today, newId);
            r.Created? && r.advance.amount == 0.13 && r.advance.fee == 0.01 && r.advance.totalAmount == 0.13 &&
            r.advance.totalAmount != r.advance.amount + r.advance.fee
  {
    assert RoundHalfAway(12.5) == 13;
    assert RoundHalfAway(0.5) == 1;
    assert RoundHalfAway(13.0) == 13;
  }

  /** A whole-cent request at a non-negative fee stores an amount due equal to the stored principal plus the stored fee. */
  lemma WholeCentRequestKeepsTotal(
    employee: Employee, settings: Settings, monthAdvances: seq<Advance>,
    amount: real, today: Today, newId: string)
    requires ValidToday(today)
    requires IsCents(amount) && amount > 0.0
    requires settings.feePercentage >= 0.0 && settings.flatFee >= 0.0
    requires Admission(employee, settings, monthAdvances, amount, today, newId).Created?
    ensures var a := Admission(employee, settings, monthAdvances, amount, today, newId).advance;
            a.totalAmount == a.amount + a.fee
  {
    var fee := AdvanceFee(amount, settings.feePercentage, settings.flatFee);
    StoredTotalMatchesWholeCents(amount, fee);
  }

  /**
   * The message of the error thrown when an advance's joined employee is null and its
   * `userId` is read; the framework's error handler answers it with status 500.
   */
  const NullEmployeeError := "Cannot read properties of null (reading 'userId')"

  /** `GET /advances/:id`: the advance, when it exists and its employee is the signed-in user. */
  function GetAdvance(db: Db, userId: string, id: string): (r: Reply<Advance>)
    ensures AdvanceById(db.advances, id).None? ==> r == Fail(404, "Advance not found")
    ensures r.Ok? <==>
              AdvanceById(db.advances, id).Some? &&
              EmployeeById(db, AdvanceById(db.advances, id).value.employeeId).Some? &&
              EmployeeById(db, AdvanceById(db.advances, id).value.employeeId).value.userId == userId
    ensures r.Ok? ==> r.value.id == id && r.value in db.advances
    ensures r.Ok? ==> exists k :: 0 <= k < |db.employees| &&
                        db.employees[k].id == r.value.employeeId && db.employees[k].userId == userId
    ensures AdvanceById(db.advances, id).Some? &&
            EmployeeById(db, AdvanceById(db.advances, id).value.employeeId).None? ==>
              r == Fail(500, NullEmployeeError)
    ensures AdvanceById(db.advances, id).Some? &&
            EmployeeById(db, AdvanceById(db.advances, id).value.employeeId).Some? &&
            EmployeeById(db, AdvanceById(db.advances, id).value.employeeId).value.userId != userId ==>
              r == Fail(403, "Forbidden")
    ensures r.Fail? ==> r.code in {403, 404, 500}
  {
    match AdvanceById(db.advances, id)
    case None => Fail(404, "Advance not found")
    case Some(advance) =>
      match EmployeeById(db, advance.employeeId)
      case None => Fail(500, NullEmployeeError)
      case Some(employee) =>
        if employee.userId != userId then Fail(403, "Forbidden")
        else Ok(advance)
  }
}

=== FILE: auth.dfy ===
/**
 * The authentication middleware: bearer-header parsing in front of every protected
 * route, and the role gate. Token verification itself is an uninterpreted function.
 */
module Auth {
  import opened Wrappers

  /** What a valid token carries. */
  datatype TokenPayload = TokenPayload(userId: string, role: string)

  /** The request context the middleware fills in for the handlers behind it. */
  datatype AuthContext = AuthContext(userId: string, role: string)

  /** A middleware verdict: run the next handler with this context, or answer with an error. */
  datatype Gate = Next(context: AuthContext) | Reject(code: int, error: string)

  const BearerPrefix := "Bearer "

  /**
   * `requireAuth`: the header must be present and start with "Bearer "; the rest of it
   * is the token, and the token must verify.
   */
  function RequireAuth(header: Option<string>, verifyToken: string -> Option<TokenPayload>): (r: Gate)
    ensures r.Reject? ==> r.code == 401
    ensures header.None? || !(BearerPrefix <= header.value) ==> r == Reject(401, "Unauthorized - No token provided")
    ensures header.Some? && BearerPrefix <= header.value && verifyToken(header.value[7..]).None? ==>
              r == Reject(401, "Unauthorized - Invalid token")
    ensures r.Next? <==> header.Some? && BearerPrefix <= header.value && verifyToken(header.value[7..]).Some?
    ensures r.Next? ==>
              verifyToken(header.value[7..]) == Some(TokenPayload(r.context.userId, r.context.role))
  {
    if header.None? || !(BearerPrefix <= header.value) then
      Reject(401, "Unauthorized - No token provided")
    else
      var token := header.value[7..];
      match verifyToken(token)
      case None => Reject(401, "Unauthorized - Invalid token")
      case Some(payload) => Next(AuthContext(payload.userId, payload.role))
  }

  /** The token handed to verification is exactly what follows the prefix: the header is prefix + token. */
  lemma TokenFollowsPrefix(header: string, verifyToken: string -> Option<TokenPayload>)
    requires RequireAuth(Some(header), verifyToken).Next?
    ensures header == BearerPrefix + header[|BearerPrefix|..]
    ensures |header| >= 7
  {
  }

  /** `requireRole(...roles)`: the context's role must be one of `roles`; the context passes through. */
  function RequireRole(roles: seq<string>, context: AuthContext): (r: Gate)
    ensures r.Reject? <==> context.role !in roles
    ensures r.Reject? ==> r.code == 403
    ensures r.Next? ==> r.context == context
  {
    if context.role !in roles then Reject(403, "Forbidden - Insufficient permissions")
    else Next(context)
  }

  /** Both gates in sequence, as the employer and employee routes mount them. */
  function Guard(header: Option<string>, verifyToken: string -> Option<TokenPayload>, roles: seq<string>): (r: Gate)
    ensures r.Next? ==> r.context.role in roles
    ensures r.Next? ==> RequireAuth(header, verifyToken) == r
    ensures RequireAuth(header, verifyToken).Reject? ==> r == RequireAuth(header, verifyToken)
  {
    match RequireAuth(header, verifyToken)
    case Reject(code, error) => Reject(code, error)
    case Next(context) => RequireRole(roles, context)
  }
}

=== FILE: calculations.dfy ===
/**
 * The closed-form money arithmetic of an advance (earned wages, cap, fee, net pay)
 * and the two-rule eligibility gate.
 */
module Calculations {
  import opened Wrappers

  /** The cap percentage used when the caller gives none. */
  const DefaultMaxPercentage: real := 50.0

  /** The flat fee used when the caller gives none. */
  const DefaultFlatFee: real := 0.0

  /** Wages earned after `daysWorked` of `totalWorkDaysInMonth`, accrued linearly. */
  function EarnedToDate(monthlySalary: real, daysWorked: real, totalWorkDaysInMonth: real): (r: real)
    requires totalWorkDaysInMonth != 0.0
    ensures daysWorked == totalWorkDaysInMonth ==> r == monthlySalary
    ensures daysWorked == 0.0 ==> r == 0.0
    ensures r * totalWorkDaysInMonth == monthlySalary * daysWorked
  {
    (monthlySalary / totalWorkDaysInMonth) * daysWorked
  }

  /** Accrual is additive in the days worked: the pay for two stretches is the sum of their pays. */
  lemma EarnedIsAdditive(salary: real, d1: real, d2: real, total: real)
    requires total != 0.0
    ensures EarnedToDate(salary, d1 + d2, total) == EarnedToDate(salary, d1, total) + EarnedToDate(salary, d2, total)
  {
    var rate := salary / total;
    assert rate * (d1 + d2) == rate * d1 + rate * d2;
  }

  /** Working half of the days earns half of the salary. */
  lemma EarnedHalfMonth(salary: real, total: real)
    requires total != 0.0
    ensures EarnedToDate(salary, total / 2.0, total) == salary / 2.0
  {
    EarnedIsAdditive(salary, total / 2.0, total / 2.0, total);
  }

  /** With a non-negative salary, what has been earned lies between nothing and the whole salary. */
  lemma EarnedWithinSalary(salary: real, days: real, total: real)
    requires total > 0.0 && 0.0 <= days <= total && salary >= 0.0
    ensures 0.0 <= EarnedToDate(salary, days, total) <= salary
  {
    var rate := salary / total;
    assert rate >= 0.0;
    assert rate * days <= rate * total;
  }

  /** The most that may be advanced against `earnedToDate`: `maxPercentage` percent of it. */
  function MaxAdvance(earnedToDate: real, maxPercentage: real): (r: real)
    ensures r * 100.0 == earnedToDate * maxPercentage
    ensures earnedToDate == 0.0 ==> r == 0.0
    ensures maxPercentage == 100.0 ==> r == earnedToDate
  {
    (earnedToDate * maxPercentage) / 100.0
  }

  /** With a percentage in [0, 100] and non-negative earnings, the cap never exceeds the earnings. */
  lemma MaxAdvanceWithinEarned(earned: real, pct: real)
    requires earned >= 0.0 && 0.0 <= pct <= 100.0
    ensures 0.0 <= MaxAdvance(earned, pct) <= earned
  {
    assert earned * pct <= earned * 100.0;
  }

  /** The cap grows with the percentage. */
  lemma MaxAdvanceMonotone(earned: real, p1: real, p2: real)
    requires earned >= 0.0 && p1 <= p2
    ensures MaxAdvance(earned, p1) <= MaxAdvance(earned, p2)
  {
    assert earned * p1 <= earned * p2;
  }

  /** The fee on `amount`: `feePercentage` percent of it plus a flat fee. */
  function AdvanceFee(amount: real, feePercentage: real, flatFee: real): (r: real)
    ensures (r - flatFee) * 100.0 == amount * feePercentage
    ensures feePercentage == 0.0 ==> r == flatFee
    ensures amount >= 0.0 && feePercentage >= 0.0 ==> r >= flatFee
  {
    var percentageFee := (amount * feePercentage) / 100.0;
    percentageFee + flatFee
  }

  /** The percentage part of the fee is additive in the amount; the flat part is charged once. */
  lemma FeeIsAdditive(a1: real, a2: real, pct: real, flat: real)
    ensures AdvanceFee(a1 + a2, pct, flat) == AdvanceFee(a1, pct, flat) + AdvanceFee(a2, pct, 0.0)
  {
    assert (a1 + a2) * pct == a1 * pct + a2 * pct;
  }

  /** Net pay: gross minus deductions, with no clamping at zero. */
  function NetPay(grossPay: real, deductions: real): (r: real)
    ensures r + deductions == grossPay
    ensures deductions == grossPay ==> r == 0.0
    ensures deductions > grossPay ==> r < 0.0
  {
    grossPay - deductions
  }

  /** Why a request is refused: the monthly count limit, or the amount cap already reached. */
  datatype Denial = TooManyAdvances(limit: int) | CapReached(percentage: real)

  /** The eligibility verdict: allowed with no reason, or refused with one. */
  datatype Eligibility = Eligibility(canRequest: bool, reason: Option<Denial>)

  /**
   * The eligibility gate: the count limit is checked first, then whether the total
   * already advanced has reached the cap.
   */
  function CanRequestAdvance(
    advancesThisMonth: int, maxAdvancesPerMonth: int, earnedToDate: real,
    totalAdvancedThisMonth: real, maxPercentage: real): (r: Eligibility)
    ensures r.canRequest <==> r.reason.None?
    ensures r.canRequest <==>
      advancesThisMonth < maxAdvancesPerMonth && totalAdvancedThisMonth * 100.0 < earnedToDate * maxPercentage
    ensures advancesThisMonth >= maxAdvancesPerMonth ==> r.reason == Some(TooManyAdvances(maxAdvancesPerMonth))
    ensures advancesThisMonth < maxAdvancesPerMonth && totalAdvancedThisMonth * 100.0 >= earnedToDate * maxPercentage ==>
              r.reason == Some(CapReached(maxPercentage))
  {
    if advancesThisMonth >= maxAdvancesPerMonth then
      Eligibility(false, Some(TooManyAdvances(maxAdvancesPerMonth)))
    else
      var maxAdvanceAmount := MaxAdvance(earnedToDate, maxPercentage);
      if totalAdvancedThisMonth >= maxAdvanceAmount then
        Eligibility(false, Some(CapReached(maxPercentage)))
      else
        Eligibility(true, None)
  }

  /**
   * More activity never turns a refusal into an admission: whoever is allowed with
   * some count and total is also allowed with any smaller count and total.
   */
  lemma EligibilityAntitone(c1: int, c2: int, max: int, earned: real, t1: real, t2: real, pct: real)
    requires c2 <= c1 && t2 <= t1
    requires CanRequestAdvance(c1, max, earned, t1, pct).canRequest
    ensures CanRequestAdvance(c2, max, earned, t2, pct).canRequest
  {
  }

  /** Raising the cap percentage never turns an admission into a refusal. */
  lemma EligibilityMonotoneInPercentage(c: int, max: int, earned: real, t: real, p1: real, p2: real)
    requires earned >= 0.0 && p1 <= p2
    requires CanRequestAdvance(c, max, earned, t, p1).canRequest
    ensures CanRequestAdvance(c, max, earned, t, p2).canRequest
  {
    MaxAdvanceMonotone(earned, p1, p2);
  }

  /** The worked examples of the earned-wage and cap tests. */
  lemma EarnedExamples()
    ensures EarnedToDate(60000.0, 15.0, 30.0) == 30000.0
    ensures EarnedToDate(30000.0, 1.0, 30.0) == 1000.0
    ensures EarnedToDate(45000.0, 22.0, 22.0) == 45000.0
    ensures MaxAdvance(20000.0, DefaultMaxPercentage) == 10000.0
    ensures MaxAdvance(30000.0, 75.0) == 22500.0
    ensures MaxAdvance(0.0, DefaultMaxPercentage) == 0.0
  {
  }

  /** The worked examples of the fee and net-pay tests. */
  lemma FeeExamples()
    ensures AdvanceFee(10000.0, 4.0, DefaultFlatFee) == 400.0
    ensures AdvanceFee(10000.0, 4.0, 50.0) == 450.0
    ensures AdvanceFee(10000.0, 0.0, 100.0) == 100.0
    ensures NetPay(50000.0, 5000.0) == 45000.0
    ensures NetPay(20000.0, 20000.0) == 0.0
  {
  }

  /** The worked examples of the eligibility tests. */
  lemma EligibilityExamples()
    ensures CanRequestAdvance(2, 4, 20000.0, 5000.0, 50.0) == Eligibility(true, None)
    ensures CanRequestAdvance(4, 4, 20000.0, 5000.0, 50.0) == Eligibility(false, Some(TooManyAdvances(4)))
    ensures CanRequestAdvance(2, 4, 20000.0, 10000.0, 50.0) == Eligibility(false, Some(CapReached(50.0)))
    ensures !CanRequestAdvance(1, 4, 20000.0, 12000.0, 50.0).canRequest
    ensures CanRequestAdvance(1, 4, 20000.0, 12000.0, 75.0) == Eligibility(true, None)
  {
  }

  /** The user-facing text of a refusal; `render` is JavaScript's number-to-text conversion. */
  function DenialMessage(d: Denial, render: real -> string): string {
    match d
    case TooManyAdvances(limit) =>
      "You've reached the maximum of " + render(limit as real) + " advances per month"
    case CapReached(pct) =>
      "You've already advanced the maximum amount (" + render(pct) + "% of earned wages)"
  }
}

=== FILE: employees_route.dfy ===
/**
 * The employee-facing read routes: the dashboard (earned wages, what has been
 * advanced, what is still available) and the advance history.
 */
module EmployeesRoute {
  import opened Wrappers
  import opened Schema
  import opened Tables
  import opened Calculations
  import opened AdvanceQueries

  /** How many of the latest advances the dashboard reads. */
  const RecentLimit: nat := 10

  /** The share of earned wages the dashboard offers, whatever the employer's policy. */
  const DashboardShare: real := 0.5

  /** The figures the dashboard shows. */
  datatype Dashboard = Dashboard(
    employee: Employee,
    earnedToDate: Money,
    totalAdvancedThisMonth: Money,
    availableToWithdraw: Money,
    recentAdvances: seq<Advance>)

  /** `Math.max(0, x)`. */
  function AtLeastZero(x: real): (r: real)
    ensures r >= 0.0 && r >= x
    ensures r == x || r == 0.0
  {
    if x > 0.0 then x else 0.0
  }

  /** The three facts the dashboard states about its balance pin it down: it is the floored difference. */
  lemma AvailableIsFlooredBalance(available: real, x: real, total: real)
    requires available >= 0.0 && available >= x
    requires available == 0.0 || available + total == x + total
    ensures available == AtLeastZero(x)
  {
  }

  /**
   * `GET /employees/dashboard`: the employee's ten latest advances, of any month, newest
   * first; the total still owed on the active ones among them; and half of the wages
   * earned so far minus that total, floored at zero.
   */
  function GetDashboard(db: Db, userId: string, today: Today): (r: Reply<Dashboard>)
    requires ValidToday(today)
    ensures r.Fail? <==> EmployeeOfUser(db, userId).None?
    ensures r.Fail? ==> r == Fail(404, "Employee not found")
    ensures r.Ok? ==>
              var d := r.value;
              d.employee == EmployeeOfUser(db, userId).value &&
              d.earnedToDate == EarnedThisMonth(d.employee.monthlySalary, today) &&
              d.availableToWithdraw >= 0.0 &&
              d.availableToWithdraw >= d.earnedToDate * DashboardShare - d.totalAdvancedThisMonth &&
              (d.availableToWithdraw == 0.0 ||
               d.availableToWithdraw + d.totalAdvancedThisMonth == d.earnedToDate * DashboardShare)
    ensures r.Ok? ==>
              var d := r.value;
              |d.recentAdvances| <= RecentLimit && NewestFirstOrder(d.recentAdvances) &&
              d.recentAdvances == Take(NewestFirst(EmployeeAdvances(db.advances, d.employee.id)), RecentLimit) &&
              d.totalAdvancedThisMonth == SumTotals(ActiveAdvances(d.recentAdvances))
  {
    match EmployeeOfUser(db, userId)
    case None => Fail(404, "Employee not found")
    case Some(employee) =>
      var sorted := NewestFirst(EmployeeAdvances(db.advances, employee.id));
      var recent := Take(sorted, RecentLimit);
      assert NewestFirstOrder(recent);
      var earned := EarnedThisMonth(employee.monthlySalary, today);
      var total := SumTotals(ActiveAdvances(recent));
      Ok(Dashboard(employee, earned, total, AtLeastZero(earned * DashboardShare - total), recent))
  }

  /** Every row owes a non-negative amount. */
  predicate NonNegativeTotals(rows: seq<Advance>) {
    forall i :: 0 <= i < |rows| ==> rows[i].totalAmount >= 0.0
  }

  /** Rows drawn from rows owing non-negative amounts owe non-negative amounts too. */
  lemma NonNegativeTotalsDrawn(small: seq<Advance>, big: seq<Advance>)
    requires NonNegativeTotals(big)
    requires forall i :: 0 <= i < |small| ==> small[i] in big
    ensures NonNegativeTotals(small)
  {
    forall i | 0 <= i < |small|
      ensures small[i].totalAmount >= 0.0
    {
      var j :| 0 <= j < |big| && big[j] == small[i];
    }
  }

  /** The dashboard's recent advances owe non-negative amounts when every stored advance does. */
  lemma RecentTotalsNonNegative(rows: seq<Advance>, employeeId: string)
    requires NonNegativeTotals(rows)
    ensures NonNegativeTotals(ActiveAdvances(Take(NewestFirst(EmployeeAdvances(rows, employeeId)), RecentLimit)))
  {
    var mine := EmployeeAdvances(rows, employeeId);
    NonNegativeTotalsDrawn(mine, rows);
    var sorted := NewestFirst(mine);
    forall i | 0 <= i < |sorted|
      ensures sorted[i] in mine
    {
      assert sorted[i] in multiset(sorted);
    }
    NonNegativeTotalsDrawn(sorted, mine);
    var recent := Take(sorted, RecentLimit);
    forall i | 0 <= i < |recent|
      ensures recent[i] in sorted
    {
      assert recent[i] == sorted[i];
    }
    NonNegativeTotalsDrawn(recent, sorted);
    NonNegativeTotalsDrawn(ActiveAdvances(recent), recent);
  }

  /**
   * With a non-negative salary and amounts due that are not negative, the available
   * balance never exceeds half of what has been earned.
   */
  lemma AvailableWithinHalfEarned(db: Db, userId: string, today: Today)
    requires ValidToday(today)
    requires GetDashboard(db, userId, today).Ok?
    requires GetDashboard(db, userId, today).value.employee.monthlySalary >= 0.0
    requires forall i :: 0 <= i < |db.advances| ==> db.advances[i].totalAmount >= 0.0
    ensures var d := GetDashboard(db, userId, today).value;
            0.0 <= d.availableToWithdraw <= d.earnedToDate * DashboardShare
  {
    var d := GetDashboard(db, userId, today).value;
    RecentTotalsNonNegative(db.advances, d.employee.id);
    assert d.totalAdvancedThisMonth >= 0.0;
  }

  /** Every advance of the employee left off the dashboard is no newer than every one shown. */
  lemma DashboardShowsTheNewest(db: Db, userId: string, today: Today)
    requires ValidToday(today)
    requires GetDashboard(db, userId, today).Ok?
    ensures var d := GetDashboard(db, userId, today).value;
            var sorted := NewestFirst(EmployeeAdvances(db.advances, d.employee.id));
            forall i, j :: 0 <= i < |d.recentAdvances| <= j < |sorted| ==>
              d.recentAdvances[i].requestedAt >= sorted[j].requestedAt
  {
    var d := GetDashboard(db, userId, today).value;
    TakeKeepsNewest(NewestFirst(EmployeeAdvances(db.advances, d.employee.id)), RecentLimit);
  }

  /**
   * When every advance of an employee was requested this month and there are at most
   * ten, the dashboard's total is the request gate's active total for the month.
   */
  lemma RecentTotalIsMonthTotal(rows: seq<Advance>, employeeId: string, monthStart: Timestamp)
    requires forall i :: 0 <= i < |rows| && rows[i].employeeId == employeeId ==> rows[i].requestedAt >= monthStart
    requires |EmployeeAdvances(rows, employeeId)| <= RecentLimit
    ensures SumTotals(ActiveAdvances(Take(NewestFirst(EmployeeAdvances(rows, employeeId)), RecentLimit))) ==
            SumTotals(ActiveAdvances(MonthAdvances(rows, employeeId, monthStart)))
  {
    var mine := EmployeeAdvances(rows, employeeId);
    MonthHoldsAllWhenRecent(rows, employeeId, monthStart);
    assert Take(NewestFirst(mine), RecentLimit) == NewestFirst(mine);
    ActiveNewestFirst(mine);
  }

  /**
   * The request gate's available balance for the month, floored at zero, under an
   * employer cap of 50%.
   */
  function GateAvailable(db: Db, e: Employee, today: Today): real
    requires ValidToday(today)
  {
    AtLeastZero(MaxAdvance(EarnedThisMonth(e.monthlySalary, today), 50.0) -
                SumTotals(ActiveAdvances(MonthAdvances(db.advances, e.id, today.firstDayOfMonth))))
  }

  /**
   * The dashboard and the request gate agree when the dashboard's assumptions hold:
   * an employer cap of 50%, every advance of the employee requested this month, and
   * no more than ten of them. Then the balance shown is the request gate's available
   * balance, floored at zero.
   */
  lemma DashboardAgreesWithRequestGate(db: Db, userId: string, today: Today, e: Employee)
    requires ValidToday(today)
    requires EmployeeOfUser(db, userId) == Some(e)
    requires forall i :: 0 <= i < |db.advances| && db.advances[i].employeeId == e.id ==>
               db.advances[i].requestedAt >= today.firstDayOfMonth
    requires |EmployeeAdvances(db.advances, e.id)| <= RecentLimit
    ensures GetDashboard(db, userId, today).Ok?
    ensures GetDashboard(db, userId, today).Ok? &&
            GetDashboard(db, userId, today).value.availableToWithdraw == GateAvailable(db, e, today)
  {
    RecentTotalIsMonthTotal(db.advances, e.id, today.firstDayOfMonth);
    var earned := EarnedThisMonth(e.monthlySalary, today);
    var total := SumTotals(ActiveAdvances(MonthAdvances(db.advances, e.id, today.firstDayOfMonth)));
    var d := GetDashboard(db, userId, today).value;
    assert d.earnedToDate == earned && d.totalAdvancedThisMonth == total;
    var x := MaxAdvance(earned, 50.0) - total;
    assert x == earned * DashboardShare - total;
    AvailableIsFlooredBalance(d.availableToWithdraw, x, total);
    assert GateAvailable(db, e, today) == AtLeastZero(x);
  }

  /** `GET /employees/advances`: every advance of the employee, newest first. */
  function AdvanceHistory(db: Db, userId: string): (r: Reply<seq<Advance>>)
    ensures r.Fail? <==> EmployeeOfUser(db, userId).None?
    ensures r.Fail? ==> r == Fail(404, "Employee not found")
    ensures r.Ok? ==> NewestFirstOrder(r.value)
    ensures r.Ok? ==>
              forall a :: a in r.value <==> a in db.advances && a.employeeId == EmployeeOfUser(db, userId).value.id
    ensures r.Ok? ==> multiset(r.value) == multiset(EmployeeAdvances(db.advances, EmployeeOfUser(db, userId).value.id))
  {
    match EmployeeOfUser(db, userId)
    case None => Fail(404, "Employee not found")
    case Some(employee) =>
      var mine := EmployeeAdvances(db.advances, employee.id);
      var sorted := NewestFirst(mine);
      NewestFirstMembers(mine);
      FilterMembers(db.advances, (a: Advance) => a.employeeId == employee.id);
      Ok(sorted)
  }
}

=== FILE: employers_route.dfy ===
/**
 * The employer-facing routes: creating an employee (duplicate check, phone
 * normalisation, user account on demand), listing the employer's advances, and the
 * approve/reject transition of a pending advance with its M-Pesa disbursement.
 */
module EmployersRoute {
  import opened Wrappers
  import opened Schema
  import opened Tables
  import opened AdvanceQueries
  import Utils
  import MpesaService

  /** Stands for the issue list the schema validator answers a malformed body with. */
  const InvalidBody := "Invalid request body"

  // ---------------------------------------------------------------------------
  // Creating an employee
  // ---------------------------------------------------------------------------

  /** The validated body of `POST /employers/employees`. */
  datatype NewEmployee = NewEmployee(
    employeeNumber: string,
    firstName: string,
    lastName: string,
    phoneNumber: string,
    mpesaNumber: string,
    monthlySalary: real,
    hireDate: Timestamp)

  /** A create request and the database after it. */
  datatype CreateStep = CreateStep(reply: Reply<Employee>, db: Db)

  /** The user account registered under a phone number. */
  function UserByPhone(db: Db, phone: string): (r: Option<User>)
    ensures r.Some? ==> r.value in db.users && r.value.phoneNumber == phone
    ensures r.None? <==> forall i :: 0 <= i < |db.users| ==> db.users[i].phoneNumber != phone
  {
    FindFirst(db.users, (u: User) => u.phoneNumber == phone)
  }

  /** The first employee carrying an employee number, whichever employer it belongs to. */
  function FirstWithNumber(db: Db, employeeNumber: string): (r: Option<Employee>)
    ensures r.Some? ==> r.value in db.employees && r.value.employeeNumber == employeeNumber
    ensures r.None? <==> forall i :: 0 <= i < |db.employees| ==> db.employees[i].employeeNumber != employeeNumber
  {
    FindFirst(db.employees, (e: Employee) => e.employeeNumber == employeeNumber)
  }

  /** The first employee of `employerId` carrying an employee number. */
  function NumberInEmployer(db: Db, employerId: string, employeeNumber: string): (r: Option<Employee>)
    ensures r.Some? ==> r.value in db.employees && r.value.employeeNumber == employeeNumber && r.value.employerId == employerId
    ensures r.None? <==>
              forall i :: 0 <= i < |db.employees| && db.employees[i].employerId == employerId ==>
                db.employees[i].employeeNumber != employeeNumber
  {
    FindFirst(db.employees, (e: Employee) => e.employeeNumber == employeeNumber && e.employerId == employerId)
  }

  /** No employer has two employees with the same employee number. */
  predicate NumbersUniquePerEmployer(employees: seq<Employee>) {
    forall i, j :: 0 <= i < j < |employees| && employees[i].employerId == employees[j].employerId ==>
      employees[i].employeeNumber != employees[j].employeeNumber
  }

  /** The account a new employee signs in with: no email, the default PIN hash, the employee role. */
  function NewEmployeeUser(id: string, phone: string, defaultPinHash: string): User {
    User(id, None, phone, Some(defaultPinHash), EmployeeRole)
  }

  /**
   * The part of the create both duplicate checks share: both numbers normalised, the
   * user with the normalised phone number reused or created, and the employee row
   * appended with its salary stored at scale 2.
   */
  function AddEmployee(
    db: Db, employer: Employer, input: NewEmployee,
    newUserId: string, newEmployeeId: string, defaultPinHash: string): (r: CreateStep)
    ensures r.reply.Ok?
    ensures var e := r.reply.value;
            e.id == newEmployeeId && e.employerId == employer.id && e.employeeNumber == input.employeeNumber &&
            e.firstName == input.firstName && e.lastName == input.lastName && e.hireDate == input.hireDate &&
            e.phoneNumber == Utils.FormatPhoneNumber(input.phoneNumber) &&
            e.mpesaNumber == Utils.FormatPhoneNumber(input.mpesaNumber) &&
            e.monthlySalary == Scale2(input.monthlySalary) && e.isActive
    ensures Utils.IsFormatted(r.reply.value.phoneNumber) && Utils.IsFormatted(r.reply.value.mpesaNumber)
    ensures r.db.employees == db.employees + [r.reply.value]
    ensures r.db.employers == db.employers && r.db.advances == db.advances
    ensures var phone := Utils.FormatPhoneNumber(input.phoneNumber);
            (UserByPhone(db, phone).Some? ==> r.db.users == db.users && r.reply.value.userId == UserByPhone(db, phone).value.id) &&
            (UserByPhone(db, phone).None? ==>
               r.db.users == db.users + [NewEmployeeUser(newUserId, phone, defaultPinHash)] &&
               r.reply.value.userId == newUserId)
    ensures var phone := Utils.FormatPhoneNumber(input.phoneNumber);
            UserByPhone(r.db, phone).Some? && UserByPhone(r.db, phone).value.id == r.reply.value.userId
  {
    var phone := Utils.FormatPhoneNumber(input.phoneNumber);
    var mpesa := Utils.FormatPhoneNumber(input.mpesaNumber);
    var found := UserByPhone(db, phone);
    var p := (u: User) => u.phoneNumber == phone;
    var user := if found.Some? then found.value else NewEmployeeUser(newUserId, phone, defaultPinHash);
    var users := if found.Some? then db.users else db.users + [user];
    var employee := Employee(
      newEmployeeId, user.id, employer.id, input.employeeNumber, input.firstName, input.lastName,
      phone, mpesa, Scale2(input.monthlySalary), input.hireDate, true);
    if found.Some? then
      CreateStep(Ok(employee), db.(employees := db.employees + [employee]))
    else
      FindFirstAppendNewMatch(db.users, user, p);
      CreateStep(Ok(employee), db.(users := users, employees := db.employees + [employee]))
  }

  /**
   * `POST /employers/employees` as written: the salary must be positive and the caller
   * must be an employer; the create is refused only when the FIRST employee found with
   * that number, among all employers, belongs to the caller's employer.
   */
  function CreateEmployee(
    db: Db, userId: string, input: NewEmployee,
    newUserId: string, newEmployeeId: string, defaultPinHash: string): (r: CreateStep)
    ensures input.monthlySalary <= 0.0 ==> r.reply == Fail(400, InvalidBody)
    ensures input.monthlySalary > 0.0 && EmployerOfUser(db, userId).None? ==> r.reply == Fail(404, "Employer not found")
    ensures input.monthlySalary > 0.0 && EmployerOfUser(db, userId).Some? ==>
              (r.reply == Fail(400, "Employee number already exists") <==>
                 FirstWithNumber(db, input.employeeNumber).Some? &&
                 FirstWithNumber(db, input.employeeNumber).value.employerId == EmployerOfUser(db, userId).value.id)
    ensures r.reply.Fail? ==> r.db == db
    ensures r.reply.Ok? ==>
              input.monthlySalary > 0.0 && EmployerOfUser(db, userId).Some? &&
              r == AddEmployee(db, EmployerOfUser(db, userId).value, input, newUserId, newEmployeeId, defaultPinHash)
  {
    if input.monthlySalary <= 0.0 then CreateStep(Fail(400, InvalidBody), db)
    else match EmployerOfUser(db, userId)
      case None => CreateStep(Fail(404, "Employer not found"), db)
      case Some(employer) =>
        var existing := FirstWithNumber(db, input.employeeNumber);
        if existing.Some? && existing.value.employerId == employer.id then
          CreateStep(Fail(400, "Employee number already exists"), db)
        else
          AddEmployee(db, employer, input, newUserId, newEmployeeId, defaultPinHash)
  }

  /**
   * The duplicate check as evidently intended: refused whenever the caller's employer
   * already has an employee with that number, wherever that employee sits in the table.
   */
  function CreateEmployeeScoped(
    db: Db, userId: string, input: NewEmployee,
    newUserId: string, newEmployeeId: string, defaultPinHash: string): (r: CreateStep)
    ensures input.monthlySalary <= 0.0 ==> r.reply == Fail(400, InvalidBody)
    ensures input.monthlySalary > 0.0 && EmployerOfUser(db, userId).None? ==> r.reply == Fail(404, "Employer not found")
    ensures input.monthlySalary > 0.0 && EmployerOfUser(db, userId).Some? ==>
              (r.reply == Fail(400, "Employee number already exists") <==>
                 exists i :: 0 <= i < |db.employees| &&
                   db.employees[i].employerId == EmployerOfUser(db, userId).value.id &&
                   db.employees[i].employeeNumber == input.employeeNumber)
    ensures r.reply.Fail? ==> r.db == db
    ensures r.reply.Ok? ==>
              input.monthlySalary > 0.0 && EmployerOfUser(db, userId).Some? &&
              r == AddEmployee(db, EmployerOfUser(db, userId).value, input, newUserId, newEmployeeId, defaultPinHash)
  {
    if input.monthlySalary <= 0.0 then CreateStep(Fail(400, InvalidBody), db)
    else match EmployerOfUser(db, userId)
      case None => CreateStep(Fail(404, "Employer not found"), db)
      case Some(employer) =>
        if NumberInEmployer(db, employer.id, input.employeeNumber).Some? then
          CreateStep(Fail(400, "Employee number already exists"), db)
        else
          AddEmployee(db, employer, input, newUserId, newEmployeeId, defaultPinHash)
  }

  /** The scoped check keeps employee numbers unique within every employer. */
  lemma ScopedCreateKeepsNumbersUnique(
    db: Db, userId: string, input: NewEmployee,
    newUserId: string, newEmployeeId: string, defaultPinHash: string)
    requires NumbersUniquePerEmployer(db.employees)
    ensures NumbersUniquePerEmployer(CreateEmployeeScoped(db, userId, input, newUserId, newEmployeeId, defaultPinHash).db.employees)
  {
    var r := CreateEmployeeScoped(db, userId, input, newUserId, newEmployeeId, defaultPinHash);
    if r.reply.Ok? {
      var es := r.db.employees;
      var n := |db.employees|;
      var e := r.reply.value;
      assert es == db.employees + [e];
      assert NumberInEmployer(db, e.employerId, input.employeeNumber).None?;
      forall i, j | 0 <= i < j < |es| && es[i].employerId == es[j].employerId
        ensures es[i].employeeNumber != es[j].employeeNumber
      {
        if j == n {
          assert es[i] == db.employees[i];
        } else {
          assert es[i] == db.employees[i] && es[j] == db.employees[j];
        }
      }
    }
  }

  /**
   * The shape of table the duplicate check as written gets wrong: the caller's employer already
   * has an employee with the requested number, but an employee of another employer
   * with that number comes first in the table.
   */
  predicate DuplicateBehindOtherEmployer(db: Db, userId: string, input: NewEmployee) {
    input.monthlySalary > 0.0 && EmployerOfUser(db, userId).Some? &&
    |db.employees| == 2 &&
    db.employees[0].employeeNumber == input.employeeNumber &&
    db.employees[0].employerId != EmployerOfUser(db, userId).value.id &&
    db.employees[1].employeeNumber == input.employeeNumber &&
    db.employees[1].employerId == EmployerOfUser(db, userId).value.id
  }

  /**
   * On such a table the duplicate check as written lets the duplicate in: the table starts with
   * numbers unique per employer and ends without, while the scoped check refuses.
   */
  lemma DuplicateNumberSlipsThrough(
    db: Db, userId: string, input: NewEmployee, newUserId: string, newEmployeeId: string, defaultPinHash: string)
    requires DuplicateBehindOtherEmployer(db, userId, input)
    ensures NumbersUniquePerEmployer(db.employees)
    ensures var r := CreateEmployee(db, userId, input, newUserId, newEmployeeId, defaultPinHash);
            r.reply.Ok? && !NumbersUniquePerEmployer(r.db.employees)
    ensures CreateEmployeeScoped(db, userId, input, newUserId, newEmployeeId, defaultPinHash).reply ==
            Fail(400, "Employee number already exists")
  {
    var es := db.employees;
    var employer := EmployerOfUser(db, userId).value;
    assert FirstWithNumber(db, input.employeeNumber) == Some(es[0]) by {
      FindFirstAt(es, (e: Employee) => e.employeeNumber == input.employeeNumber, 0);
    }
    var r := CreateEmployee(db, userId, input, newUserId, newEmployeeId, defaultPinHash);
    assert r == AddEmployee(db, employer, input, newUserId, newEmployeeId, defaultPinHash);
    AppendingTwinBreaksUniqueness(es, r.reply.value, 1);
  }

  /** Appending an employee whose employer already has its number breaks uniqueness. */
  lemma AppendingTwinBreaksUniqueness(es: seq<Employee>, e: Employee, i: nat)
    requires i < |es| && es[i].employerId == e.employerId && es[i].employeeNumber == e.employeeNumber
    ensures !NumbersUniquePerEmployer(es + [e])
  {
    var es' := es + [e];
    assert es'[i] == es[i] && es'[|es|] == e;
  }

  /** A concrete instance: employer A (user `uA`) asks for a second E7 while B's E7 comes first. */
  lemma DuplicateExample()
    ensures DuplicateBehindOtherEmployer(
              Db([],
                 [Employer("A", "uA", "Acme", true, Some(DefaultSettings)), Employer("B", "uB", "Beta", true, Some(DefaultSettings))],
                 [Employee("e1", "u1", "B", "E7", "Ann", "One", "+254700000001", "+254700000001", 30000.0, 0, true),
                  Employee("e2", "u2", "A", "E7", "Ben", "Two", "+254700000002", "+254700000002", 30000.0, 0, true)],
                 []),
              "uA",
              NewEmployee("E7", "Cat", "Three", "0700000003", "0700000003", 40000.0, 0))
  {
  }

  // ---------------------------------------------------------------------------
  // Listing advances
  // ---------------------------------------------------------------------------

  /** A `status` query parameter filters only when it is given and not empty. */
  predicate FiltersByStatus(status: Option<string>) {
    status.Some? && status.value != ""
  }

  /** The advances `GET /employers/advances` returns for `employerId` and an optional status. */
  predicate Listed(a: Advance, employerId: string, status: Option<string>) {
    a.employerId == employerId && (FiltersByStatus(status) ==> StatusName(a.status) == status.value)
  }

  /** `GET /employers/advances`: the employer's advances, narrowed to one status when asked, newest first. */
  function ListAdvances(db: Db, userId: string, status: Option<string>): (r: Reply<seq<Advance>>)
    ensures r.Fail? <==> EmployerOfUser(db, userId).None?
    ensures r.Fail? ==> r == Fail(404, "Employer not found")
    ensures r.Ok? ==> NewestFirstOrder(r.value) && |r.value| <= |db.advances|
    ensures r.Ok? ==>
              forall a :: a in r.value <==> a in db.advances && Listed(a, EmployerOfUser(db, userId).value.id, status)
    ensures r.Ok? ==>
              multiset(r.value) ==
              multiset(Filter(db.advances, (a: Advance) => Listed(a, EmployerOfUser(db, userId).value.id, status)))
  {
    match EmployerOfUser(db, userId)
    case None => Fail(404, "Employer not found")
    case Some(employer) =>
      var p := (a: Advance) => Listed(a, employer.id, status);
      var selected := Filter(db.advances, p);
      var sorted := NewestFirst(selected);
      NewestFirstMembers(selected);
      FilterMembers(db.advances, p);
      Ok(sorted)
  }

  /** A status the table never holds lists nothing. */
  lemma UnknownStatusListsNothing(db: Db, userId: string, status: string)
    requires status != ""
    requires forall st: AdvanceStatus :: StatusName(st) != status
    requires EmployerOfUser(db, userId).Some?
    ensures ListAdvances(db, userId, Some(status)) == Ok([])
  {
    var r := ListAdvances(db, userId, Some(status)).value;
    assert forall a :: a !in r;
  }

  /** Without a status every advance of the employer is listed. */
  lemma NoStatusListsAll(db: Db, userId: string, a: Advance)
    requires EmployerOfUser(db, userId).Some?
    requires a in db.advances && a.employerId == EmployerOfUser(db, userId).value.id
    ensures a in ListAdvances(db, userId, None).value && a in ListAdvances(db, userId, Some("")).value
  {
  }

  // ---------------------------------------------------------------------------
  // Approving or rejecting an advance
  // ---------------------------------------------------------------------------

  /** The fields an approval sets. */
  function ApproveAdvance(a: Advance, now: Timestamp): (b: Advance)
    ensures b.status == Approved && b.approvedAt == Some(now)
    ensures IsActive(b)
    ensures b.(status := a.status, approvedAt := a.approvedAt) == a
  {
    a.(status := Approved, approvedAt := Some(now))
  }

  /** The fields a successful payment request sets: the provider's originator conversation id. */
  function RecordConversation(a: Advance, conversationId: string): (b: Advance)
    ensures b.mpesaConversationId == Some(conversationId) && b.status == a.status
  {
    a.(mpesaConversationId := Some(conversationId))
  }

  /** The fields a failed payment request sets. */
  function FailDisbursement(a: Advance, reason: string, now: Timestamp): (b: Advance)
    ensures b.status == Failed && b.failureReason == Some(reason) && b.failedAt == Some(now)
    ensures !IsActive(b)
  {
    a.(status := Failed, failureReason := Some(reason), failedAt := Some(now))
  }

  /** The fields a rejection sets. */
  function RejectAdvance(a: Advance, reason: string): (b: Advance)
    ensures b.status == Cancelled && b.failureReason == Some(reason)
    ensures !IsActive(b)
  {
    a.(status := Cancelled, failureReason := Some(reason))
  }

  /** What a status change did to the rows carrying the requested id. */
  datatype Change =
    | NoChange
    | Rejection(reason: string)
    | Approval(at: Timestamp)
    | ApprovalSent(at: Timestamp, conversationId: string)
    | ApprovalFailed(at: Timestamp, reason: string)

  /** The row a change leaves behind: approval first, then what the payment attempt recorded. */
  function Apply(c: Change, a: Advance): Advance {
    match c
    case NoChange => a
    case Rejection(reason) => RejectAdvance(a, reason)
    case Approval(at) => ApproveAdvance(a, at)
    case ApprovalSent(at, conversationId) => RecordConversation(ApproveAdvance(a, at), conversationId)
    case ApprovalFailed(at, reason) => FailDisbursement(ApproveAdvance(a, at), reason, at)
  }

  /** What a transition may never touch: identity, ownership, money and request time. */
  predicate SameTerms(a: Advance, b: Advance) {
    a.id == b.id && a.employeeId == b.employeeId && a.employerId == b.employerId &&
    a.amount == b.amount && a.fee == b.fee && a.totalAmount == b.totalAmount && a.requestedAt == b.requestedAt
  }

  /** Every change keeps the terms of the advance, and every real change leaves it no longer pending. */
  lemma ApplyKeepsTerms(c: Change, a: Advance)
    ensures SameTerms(a, Apply(c, a))
    ensures c != NoChange ==> Apply(c, a).status != Pending
  {
  }

  const RejectedByEmployer := "Rejected by employer"
  const DisbursementFailedDefault := "M-Pesa disbursement failed"
  const PaymentFailedError := "Advance approved but M-Pesa payment failed"
  const ApprovedDisabledMessage := "Advance approved (M-Pesa disabled)"
  const ApprovedInitiatedMessage := "Advance approved and M-Pesa payment initiated"
  const RejectedMessage := "Advance rejected"

  /** What reading `mpesaNumber` off a missing joined employee throws. */
  const MissingEmployeeError := "Cannot read properties of null (reading 'mpesaNumber')"

  /**
   * The checks before a status change: the caller is an employer, the advance exists,
   * belongs to that employer and is still pending. Yields the advance.
   */
  function PatchTarget(db: Db, userId: string, advanceId: string): (r: Reply<Advance>)
    ensures EmployerOfUser(db, userId).None? ==> r == Fail(404, "Employer not found")
    ensures EmployerOfUser(db, userId).Some? && AdvanceById(db.advances, advanceId).None? ==>
              r == Fail(404, "Advance not found")
    ensures EmployerOfUser(db, userId).Some? && AdvanceById(db.advances, advanceId).Some? &&
            AdvanceById(db.advances, advanceId).value.employerId != EmployerOfUser(db, userId).value.id ==>
              r == Fail(403, "Forbidden")
    ensures EmployerOfUser(db, userId).Some? && AdvanceById(db.advances, advanceId).Some? &&
            AdvanceById(db.advances, advanceId).value.employerId == EmployerOfUser(db, userId).value.id &&
            AdvanceById(db.advances, advanceId).value.status != Pending ==>
              r == Fail(400, "Cannot update advance with status: " + StatusName(AdvanceById(db.advances, advanceId).value.status))
    ensures r.Ok? <==>
              EmployerOfUser(db, userId).Some? && AdvanceById(db.advances, advanceId).Some? &&
              AdvanceById(db.advances, advanceId).value.employerId == EmployerOfUser(db, userId).value.id &&
              AdvanceById(db.advances, advanceId).value.status == Pending
    ensures r.Ok? ==> r.value == AdvanceById(db.advances, advanceId).value
  {
    match EmployerOfUser(db, userId)
    case None => Fail(404, "Employer not found")
    case Some(employer) =>
      match AdvanceById(db.advances, advanceId)
      case None => Fail(404, "Advance not found")
      case Some(advance) =>
        if advance.employerId != employer.id then Fail(403, "Forbidden")
        else if advance.status != Pending then Fail(400, "Cannot update advance with status: " + StatusName(advance.status))
        else Ok(advance)
  }

  /** The payment an approval asks for: the advance's principal to the employee's M-Pesa number, referenced by the advance id. */
  function PaymentFor(advance: Advance, employee: Employee): (req: MpesaService.B2CRequest)
    ensures req.amount == advance.amount && req.phoneNumber == employee.mpesaNumber
    ensures req.occasionReference == advance.id
  {
    MpesaService.B2CRequest(
      advance.amount, employee.mpesaNumber,
      "Salary advance for " + employee.firstName + " " + employee.lastName, advance.id)
  }

  /** The answer to a status change: a message, or a status, an error and optional details. */
  datatype PatchReply = Done(message: string) | Error(code: int, error: string, details: Option<string>)

  /**
   * A status change: the answer, what it did to the requested advance, the advances
   * table after it, the payment client after it, and what was posted.
   */
  datatype PatchStep = PatchStep(
    reply: PatchReply,
    change: Change,
    advances: seq<Advance>,
    service: MpesaService.Service,
    posted: Option<MpesaService.PaymentPost>)

  /** The outcome of the payment attempt an approval makes when payouts are enabled. */
  function Disburse(
    db: Db, advance: Advance, service: MpesaService.Service, now: Timestamp,
    auth: MpesaService.AuthResponse, post: MpesaService.PostResponse): (r: PatchStep)
    ensures r.advances == [] && r.change != NoChange
    ensures EmployeeById(db, advance.employeeId).None? ==>
              r == PatchStep(Error(500, PaymentFailedError, Some(MissingEmployeeError)),
                             ApprovalFailed(now, MissingEmployeeError), [], service, None)
    ensures EmployeeById(db, advance.employeeId).Some? ==>
              var sent := MpesaService.SendMoney(service, PaymentFor(advance, EmployeeById(db, advance.employeeId).value), now, auth, post);
              r.service == sent.service && r.posted == sent.posted &&
              (sent.outcome.Returned? ==>
                 r.reply == Done(ApprovedInitiatedMessage) &&
                 r.change == ApprovalSent(now, sent.outcome.value.originatorConversationId)) &&
              (sent.outcome.Threw? ==>
                 r.reply == Error(500, PaymentFailedError, Some(sent.outcome.message)) &&
                 r.change == ApprovalFailed(now, OrElse(Some(sent.outcome.message), DisbursementFailedDefault)))
  {
    match EmployeeById(db, advance.employeeId)
    case None =>
      PatchStep(Error(500, PaymentFailedError, Some(MissingEmployeeError)),
                ApprovalFailed(now, MissingEmployeeError), [], service, None)
    case Some(employee) =>
      var sent := MpesaService.SendMoney(service, PaymentFor(advance, employee), now, auth, post);
      match sent.outcome
      case Returned(data) =>
        PatchStep(Done(ApprovedInitiatedMessage), ApprovalSent(now, data.originatorConversationId), [], sent.service, sent.posted)
      case Threw(message) =>
        PatchStep(Error(500, PaymentFailedError, Some(message)),
                  ApprovalFailed(now, OrElse(Some(message), DisbursementFailedDefault)), [], sent.service, sent.posted)
  }

  /**
   * `PATCH /employers/advances/:id` with body status `approved` or `cancelled`. An
   * approval with payouts enabled (`mpesaEnabled`) requests the payment at once; its
   * acceptance records the conversation id and its failure marks the advance failed.
   */
  function UpdateAdvanceStatus(
    db: Db, userId: string, advanceId: string, status: string, reason: Option<string>,
    mpesaEnabled: bool, service: MpesaService.Service, now: Timestamp,
    auth: MpesaService.AuthResponse, post: MpesaService.PostResponse): (r: PatchStep)
    ensures |r.advances| == |db.advances|
    ensures forall i :: 0 <= i < |db.advances| ==>
              r.advances[i] == if db.advances[i].id == advanceId then Apply(r.change, db.advances[i]) else db.advances[i]
    ensures r.change != NoChange <==> (status == "approved" || status == "cancelled") && PatchTarget(db, userId, advanceId).Ok?
    ensures status != "approved" && status != "cancelled" ==>
              r == PatchStep(Error(400, InvalidBody, None), NoChange, db.advances, service, None)
    ensures (status == "approved" || status == "cancelled") && PatchTarget(db, userId, advanceId).Fail? ==>
              var f := PatchTarget(db, userId, advanceId);
              r == PatchStep(Error(f.code, f.error, None), NoChange, db.advances, service, None)
    ensures status == "cancelled" && PatchTarget(db, userId, advanceId).Ok? ==>
              r.reply == Done(RejectedMessage) && r.change == Rejection(OrElse(reason, RejectedByEmployer)) &&
              r.service == service && r.posted.None?
    ensures status == "approved" && PatchTarget(db, userId, advanceId).Ok? && !mpesaEnabled ==>
              r.reply == Done(ApprovedDisabledMessage) && r.change == Approval(now) &&
              r.service == service && r.posted.None?
    ensures status == "approved" && PatchTarget(db, userId, advanceId).Ok? && mpesaEnabled ==>
              var d := Disburse(db, PatchTarget(db, userId, advanceId).value, service, now, auth, post);
              r.reply == d.reply && r.change == d.change && r.service == d.service && r.posted == d.posted
  {
    if status != "approved" && status != "cancelled" then
      PatchStep(Error(400, InvalidBody, None), NoChange, db.advances, service, None)
    else match PatchTarget(db, userId, advanceId)
      case Fail(code, error) => PatchStep(Error(code, error, None), NoChange, db.advances, service, None)
      case Ok(advance) =>
        var step :=
          if status == "cancelled" then PatchStep(Done(RejectedMessage), Rejection(OrElse(reason, RejectedByEmployer)), [], service, None)
          else if !mpesaEnabled then PatchStep(Done(ApprovedDisabledMessage), Approval(now), [], service, None)
          else Disburse(db, advance, service, now, auth, post);
        step.(advances := UpdateAdvance(db.advances, advanceId, (a: Advance) => Apply(step.change, a)))
  }

  /** A status change only ever touches the requested advance, and only when it was pending and the caller's. */
  lemma PatchChangesOnlyPendingOwned(
    db: Db, userId: string, advanceId: string, status: string, reason: Option<string>,
    mpesaEnabled: bool, service: MpesaService.Service, now: Timestamp,
    auth: MpesaService.AuthResponse, post: MpesaService.PostResponse)
    ensures var r := UpdateAdvanceStatus(db, userId, advanceId, status, reason, mpesaEnabled, service, now, auth, post);
            forall i :: 0 <= i < |db.advances| && r.advances[i] != db.advances[i] ==>
              db.advances[i].id == advanceId && PatchTarget(db, userId, advanceId).Ok?
  {
  }

  /** No status change alters an advance's identity, ownership, money or request time. */
  lemma PatchKeepsTerms(
    db: Db, userId: string, advanceId: string, status: string, reason: Option<string>,
    mpesaEnabled: bool, service: MpesaService.Service, now: Timestamp,
    auth: MpesaService.AuthResponse, post: MpesaService.PostResponse)
    ensures var r := UpdateAdvanceStatus(db, userId, advanceId, status, reason, mpesaEnabled, service, now, auth, post);
            forall i :: 0 <= i < |db.advances| ==> SameTerms(db.advances[i], r.advances[i])
  {
    var r := UpdateAdvanceStatus(db, userId, advanceId, status, reason, mpesaEnabled, service, now, auth, post);
    forall i | 0 <= i < |db.advances|
      ensures SameTerms(db.advances[i], r.advances[i])
    {
      ApplyKeepsTerms(r.change, db.advances[i]);
    }
  }

  /** With payouts enabled, every approval that reaches the provider carries the advance id as its occasion. */
  lemma PaymentCarriesAdvanceId(
    db: Db, userId: string, advanceId: string, reason: Option<string>,
    service: MpesaService.Service, now: Timestamp,
    auth: MpesaService.AuthResponse, post: MpesaService.PostResponse)
    ensures var r := UpdateAdvanceStatus(db, userId, advanceId, "approved", reason, true, service, now, auth, post);
            r.posted.Some? ==> r.posted.value.payload.occasion == advanceId
  {
    var r := UpdateAdvanceStatus(db, userId, advanceId, "approved", reason, true, service, now, auth, post);
    if r.posted.Some? {
      assert PatchTarget(db, userId, advanceId).Ok?;
      var advance := PatchTarget(db, userId, advanceId).value;
      assert advance.id == advanceId;
      var d := Disburse(db, advance, service, now, auth, post);
      assert r.posted == d.posted;
      var employee := EmployeeById(db, advance.employeeId).value;
      var req := PaymentFor(advance, employee);
      assert d.posted == MpesaService.SendMoney(service, req, now, auth, post).posted;
      assert r.posted.value.payload == MpesaService.BuildPayload(service.config, req);
    }
  }

  /**
   * A change is applied at most once: after an accepted approval or rejection the
   * advance is no longer pending, so repeating the request is refused with 400.
   */
  lemma NoSecondChange(
    db: Db, userId: string, advanceId: string, status: string, reason: Option<string>,
    mpesaEnabled: bool, service: MpesaService.Service, now: Timestamp,
    auth: MpesaService.AuthResponse, post: MpesaService.PostResponse)
    requires status == "approved" || status == "cancelled"
    requires PatchTarget(db, userId, advanceId).Ok?
    ensures var r := UpdateAdvanceStatus(db, userId, advanceId, status, reason, mpesaEnabled, service, now, auth, post);
            AdvanceById(r.advances, advanceId).Some? && AdvanceById(r.advances, advanceId).value.status != Pending &&
            PatchTarget(db.(advances := r.advances), userId, advanceId).Fail? &&
            PatchTarget(db.(advances := r.advances), userId, advanceId).code == 400
  {
    var r := UpdateAdvanceStatus(db, userId, advanceId, status, reason, mpesaEnabled, service, now, auth, post);
    var f := (a: Advance) => Apply(r.change, a);
    assert r.advances == UpdateAdvance(db.advances, advanceId, f);
    ApplyKeepsTerms(r.change, AdvanceById(db.advances, advanceId).value);
    UpdatedAdvanceFound(db.advances, advanceId, f);
    var db' := db.(advances := r.advances);
    assert EmployerOfUser(db', userId) == EmployerOfUser(db, userId);
  }
}

=== FILE: mpesa_callbacks.dfy ===
/**
 * The M-Pesa webhooks: the B2C result and timeout callbacks reconcile the advance
 * whose stored conversation id the provider echoes back; the query callbacks only
 * acknowledge. Every handler answers with a result code, never with an HTTP error.
 */
module MpesaCallbacks {
  import opened Wrappers
  import opened Schema
  import opened Tables
  import opened AdvanceQueries

  /** One `{ Key, Value }` entry of `ResultParameters.ResultParameter`. */
  datatype Parameter = Parameter(key: string, value: Option<string>)

  /** The fields of `body.Result` the handlers read; absent fields are `None`. */
  datatype CallbackResult = CallbackResult(
    resultCode: Option<int>,
    resultDesc: Option<string>,
    originatorConversationId: Option<string>,
    parameters: seq<Parameter>)

  /**
   * A webhook body: `Malformed` for one whose handling throws before the table is written
   * (it cannot be read as JSON, or it reports result code 0 for a stored advance while its
   * `ResultParameter` is not an array or holds a null entry before its first `TransactionID`
   * entry); otherwise an object with an
   * optional `Result` whose parameters are well-formed entries.
   */
  datatype CallbackBody = Malformed | Body(result: Option<CallbackResult>)

  /** The acknowledgement every webhook answers with. */
  datatype Ack = Ack(resultCode: int, resultDesc: string)

  const Accepted := Ack(0, "Accepted")

  /** A webhook call: the acknowledgement and the advances table after it. */
  datatype CallbackStep = CallbackStep(ack: Ack, advances: seq<Advance>)

  const TransactionFailedDefault := "M-Pesa transaction failed"
  const TimedOutReason := "Transaction timed out"

  /** The conversation id the body carries, if any. */
  function ConversationId(result: Option<CallbackResult>): Option<string> {
    if result.Some? then result.value.originatorConversationId else None
  }

  /**
   * The advance a callback is about: the first row whose stored conversation id equals
   * the echoed one. A missing id compares as SQL NULL and matches no row.
   */
  function AdvanceByConversation(rows: seq<Advance>, conversationId: Option<string>): (r: Option<Advance>)
    ensures conversationId.None? ==> r.None?
    ensures r.Some? ==> r.value in rows && r.value.mpesaConversationId == conversationId
    ensures conversationId.Some? ==>
              (r.None? <==> forall i :: 0 <= i < |rows| ==> rows[i].mpesaConversationId != conversationId)
  {
    if conversationId.None? then None
    else FindFirst(rows, (a: Advance) => a.mpesaConversationId == conversationId)
  }

  /** The value of the first `TransactionID` parameter; an empty value counts as none. */
  function TransactionId(parameters: seq<Parameter>): (r: Option<string>)
    ensures r.Some? ==> r.value != "" && Parameter("TransactionID", r) in parameters
    ensures (forall i :: 0 <= i < |parameters| ==> parameters[i].key != "TransactionID") ==> r.None?
    ensures forall k :: (0 <= k < |parameters| && parameters[k].key == "TransactionID" &&
                         (forall j :: 0 <= j < k ==> parameters[j].key != "TransactionID")) ==>
              r == (if parameters[k].value.Some? && parameters[k].value.value != "" then parameters[k].value else None)
  {
    match FindFirst(parameters, (p: Parameter) => p.key == "TransactionID")
    case None => None
    case Some(p) => if p.value.Some? && p.value.value != "" then p.value else None
  }

  /** The fields a successful result sets. */
  function MarkDisbursed(a: Advance, transactionId: Option<string>, now: Timestamp): (b: Advance)
    ensures b.status == Disbursed && b.mpesaTransactionId == transactionId && b.disbursedAt == Some(now)
    ensures IsActive(b)
    ensures b.(status := a.status, mpesaTransactionId := a.mpesaTransactionId, disbursedAt := a.disbursedAt) == a
  {
    a.(status := Disbursed, mpesaTransactionId := transactionId, disbursedAt := Some(now))
  }

  /** The fields a failed result or a timeout sets; `failedAt` is left as it was. */
  function MarkFailed(a: Advance, reason: string): (b: Advance)
    ensures b.status == Failed && b.failureReason == Some(reason) && b.failedAt == a.failedAt
  {
    a.(status := Failed, failureReason := Some(reason))
  }

  /** What a B2C result does to the advance it matches: result code 0 disburses it, anything else fails it. */
  function Settle(result: CallbackResult, a: Advance, now: Timestamp): (b: Advance)
    ensures b.status == Disbursed <==> result.resultCode == Some(0)
    ensures b.status == Disbursed || b.status == Failed
    ensures result.resultCode == Some(0) ==>
              b.disbursedAt == Some(now) && b.mpesaTransactionId == TransactionId(result.parameters) &&
              b.failureReason == a.failureReason
    ensures result.resultCode != Some(0) ==>
              b.disbursedAt == a.disbursedAt && b.mpesaTransactionId == a.mpesaTransactionId &&
              b.failureReason.Some? && b.failureReason.value != ""
    ensures result.resultCode != Some(0) && result.resultDesc.Some? && result.resultDesc.value != "" ==>
              b.failureReason == result.resultDesc
    ensures result.resultCode != Some(0) && (result.resultDesc.None? || result.resultDesc.value == "") ==>
              b.failureReason == Some(TransactionFailedDefault)
    ensures b.(status := a.status, disbursedAt := a.disbursedAt, mpesaTransactionId := a.mpesaTransactionId,
               failureReason := a.failureReason) == a
  {
    if result.resultCode == Some(0) then MarkDisbursed(a, TransactionId(result.parameters), now)
    else MarkFailed(a, OrElse(result.resultDesc, TransactionFailedDefault))
  }

  /**
   * `POST /mpesa/result`: reconciles the matched advance with the outcome, whatever
   * status it is in. An unknown conversation id is acknowledged and changes nothing;
   * an unreadable body is answered with result code 1.
   */
  function HandleResult(rows: seq<Advance>, body: CallbackBody, now: Timestamp): (r: CallbackStep)
    ensures |r.advances| == |rows|
    ensures body.Malformed? ==> r == CallbackStep(Ack(1, "Failed to process callback"), rows)
    ensures body.Body? ==> r.ack == Accepted
    ensures body.Body? && AdvanceByConversation(rows, ConversationId(body.result)).None? ==> r.advances == rows
    ensures body.Body? && AdvanceByConversation(rows, ConversationId(body.result)).Some? ==>
              var id := AdvanceByConversation(rows, ConversationId(body.result)).value.id;
              forall i :: 0 <= i < |rows| ==>
                r.advances[i] == if rows[i].id == id then Settle(body.result.value, rows[i], now) else rows[i]
  {
    match body
    case Malformed => CallbackStep(Ack(1, "Failed to process callback"), rows)
    case Body(result) =>
      match AdvanceByConversation(rows, ConversationId(result))
      case None => CallbackStep(Accepted, rows)
      case Some(advance) =>
        CallbackStep(Accepted, UpdateAdvance(rows, advance.id, (a: Advance) => Settle(result.value, a, now)))
  }

  /**
   * `POST /mpesa/timeout`: the matched advance is marked failed with a fixed reason,
   * whatever status it is in; otherwise as for results.
   */
  function HandleTimeout(rows: seq<Advance>, body: CallbackBody): (r: CallbackStep)
    ensures |r.advances| == |rows|
    ensures body.Malformed? ==> r == CallbackStep(Ack(1, "Failed to process timeout"), rows)
    ensures body.Body? ==> r.ack == Accepted
    ensures body.Body? && AdvanceByConversation(rows, ConversationId(body.result)).None? ==> r.advances == rows
    ensures body.Body? && AdvanceByConversation(rows, ConversationId(body.result)).Some? ==>
              var id := AdvanceByConversation(rows, ConversationId(body.result)).value.id;
              forall i :: 0 <= i < |rows| ==>
                r.advances[i] == if rows[i].id == id then MarkFailed(rows[i], TimedOutReason) else rows[i]
  {
    match body
    case Malformed => CallbackStep(Ack(1, "Failed to process timeout"), rows)
    case Body(result) =>
      match AdvanceByConversation(rows, ConversationId(result))
      case None => CallbackStep(Accepted, rows)
      case Some(advance) => CallbackStep(Accepted, UpdateAdvance(rows, advance.id, (a: Advance) => MarkFailed(a, TimedOutReason)))
  }

  /** `POST /mpesa/query-result` and `POST /mpesa/query-timeout`: acknowledge a readable body, nothing else. */
  function HandleQueryCallback(body: CallbackBody): (ack: Ack)
    ensures ack.resultCode == 0 <==> body.Body?
    ensures body.Body? ==> ack == Accepted
    ensures body.Malformed? ==> ack == Ack(1, "Failed")
  {
    if body.Malformed? then Ack(1, "Failed") else Accepted
  }

  /** Only the advance the callback names changes; every other row, the conversation ids included, stays as it was. */
  lemma CallbacksTouchOnlyTheMatch(rows: seq<Advance>, body: CallbackBody, now: Timestamp)
    ensures var r := HandleResult(rows, body, now);
            forall i :: 0 <= i < |rows| && r.advances[i] != rows[i] ==>
              AdvanceByConversation(rows, ConversationId(body.result)).Some? &&
              rows[i].id == AdvanceByConversation(rows, ConversationId(body.result)).value.id
    ensures var r := HandleTimeout(rows, body);
            forall i :: 0 <= i < |rows| && r.advances[i] != rows[i] ==>
              AdvanceByConversation(rows, ConversationId(body.result)).Some? &&
              rows[i].id == AdvanceByConversation(rows, ConversationId(body.result)).value.id
    ensures forall i :: 0 <= i < |rows| ==>
              HandleResult(rows, body, now).advances[i].mpesaConversationId == rows[i].mpesaConversationId &&
              HandleTimeout(rows, body).advances[i].mpesaConversationId == rows[i].mpesaConversationId
  {
  }

  /** A callback that changes rows without touching their conversation ids matches the same advance again. */
  lemma SameMatchAfterUpdate(rows: seq<Advance>, rows': seq<Advance>, conversationId: Option<string>)
    requires |rows'| == |rows|
    requires forall i :: 0 <= i < |rows| ==> rows'[i].mpesaConversationId == rows[i].mpesaConversationId
    requires forall i :: 0 <= i < |rows| ==> rows'[i].id == rows[i].id
    ensures AdvanceByConversation(rows', conversationId).None? == AdvanceByConversation(rows, conversationId).None?
    ensures AdvanceByConversation(rows, conversationId).Some? ==>
              AdvanceByConversation(rows', conversationId).value.id == AdvanceByConversation(rows, conversationId).value.id
  {
    if conversationId.Some? {
      var p := (a: Advance) => a.mpesaConversationId == conversationId;
      FirstIndexAgrees(rows, rows', p);
    }
  }

  /** Settling an advance with the same result twice is settling it once. */
  lemma SettleIdempotent(result: CallbackResult, a: Advance, now: Timestamp)
    ensures Settle(result, Settle(result, a, now), now) == Settle(result, a, now)
    ensures Settle(result, a, now).id == a.id
  {
  }

  /**
   * A provider retry is harmless: delivering the same result twice at the same
   * moment leaves the table as one delivery does.
   */
  lemma ResultRedeliveryIsIdempotent(rows: seq<Advance>, body: CallbackBody, now: Timestamp)
    ensures var once := HandleResult(rows, body, now);
            HandleResult(once.advances, body, now) == once
  {
    var once := HandleResult(rows, body, now);
    if body.Body? {
      var cid := ConversationId(body.result);
      SameMatchAfterUpdate(rows, once.advances, cid);
      match AdvanceByConversation(rows, cid)
      case None =>
      case Some(advance) =>
        var f := (a: Advance) => Settle(body.result.value, a, now);
        assert once.advances == UpdateAdvance(rows, advance.id, f);
        forall a: Advance
          ensures f(a).id == a.id && f(f(a)) == f(a)
        {
          SettleIdempotent(body.result.value, a, now);
        }
        UpdateAdvanceTwice(rows, advance.id, f);
    }
  }

  /** Delivering the same timeout twice leaves the table as one delivery does. */
  lemma TimeoutRedeliveryIsIdempotent(rows: seq<Advance>, body: CallbackBody)
    ensures var once := HandleTimeout(rows, body);
            HandleTimeout(once.advances, body) == once
  {
    var once := HandleTimeout(rows, body);
    if body.Body? {
      var cid := ConversationId(body.result);
      SameMatchAfterUpdate(rows, once.advances, cid);
      match AdvanceByConversation(rows, cid)
      case None =>
      case Some(advance) =>
        var f := (a: Advance) => MarkFailed(a, TimedOutReason);
        assert once.advances == UpdateAdvance(rows, advance.id, f);
        UpdateAdvanceTwice(rows, advance.id, f);
    }
  }

  /**
   * No status guard: a failure result, or a timeout, arriving after the advance was
   * already disbursed turns it to failed, and it stops counting towards the monthly limits.
   */
  lemma LateFailureOverridesDisbursement(rows: seq<Advance>, result: CallbackResult, now: Timestamp)
    requires result.resultCode != Some(0)
    requires AdvanceByConversation(rows, result.originatorConversationId).Some?
    requires AdvanceByConversation(rows, result.originatorConversationId).value.status == Disbursed
    ensures var a := AdvanceByConversation(rows, result.originatorConversationId).value;
            var k :| 0 <= k < |rows| && rows[k] == a;
            HandleResult(rows, Body(Some(result)), now).advances[k].status == Failed &&
            HandleTimeout(rows, Body(Some(result))).advances[k].status == Failed &&
            !IsActive(HandleResult(rows, Body(Some(result)), now).advances[k])
  {
  }
}

=== FILE: mpesa_service.dfy ===
/**
 * The pure part of the M-Pesa disbursement client: base-URL selection, the
 * access-token cache as a clock-driven state machine, the B2C payment payload and
 * the mapping of failures to error messages. Each HTTP call is an oracle value
 * (what the provider answered), so a step is a function of state, clock and answers.
 */
module MpesaService {
  import opened Wrappers
  import Utils
  import Tables

  datatype MpesaConfig = MpesaConfig(
    consumerKey: string,
    consumerSecret: string,
    shortcode: string,
    initiatorName: string,
    securityCredential: string,
    passkey: string,
    callbackUrl: string,
    environment: string)

  /** The client instance: configuration, chosen host and the cached access token. */
  datatype Service = Service(
    config: MpesaConfig,
    baseUrl: string,
    accessToken: Option<string>,
    tokenExpiry: int)

  const ProductionUrl := "https://api.safaricom.co.ke"
  const SandboxUrl := "https://sandbox.safaricom.co.ke"

  /** How long a fetched token is reused: 50 minutes in milliseconds (the token itself lasts an hour). */
  const TokenLifetimeMs := 50 * 60 * 1000

  /** A new client: the production host iff the environment is "production", and an empty cache. */
  function NewService(config: MpesaConfig): (s: Service)
    ensures s.baseUrl == ProductionUrl <==> config.environment == "production"
    ensures s.baseUrl == SandboxUrl <==> config.environment != "production"
    ensures s.config == config && s.accessToken.None? && s.tokenExpiry == 0
  {
    Service(config, if config.environment == "production" then ProductionUrl else SandboxUrl, None, 0)
  }

  /** The cached token may be used at `now`: one is set, it is not empty, and it has not expired. */
  predicate CacheValid(s: Service, now: int) {
    s.accessToken.Some? && s.accessToken.value != "" && now < s.tokenExpiry
  }

  /**
   * A cached token stays usable from any earlier moment up to, but not including, its
   * expiry, and without a non-empty token nothing is ever usable.
   */
  lemma CacheWindow(s: Service, now: int)
    ensures CacheValid(s, now) ==> forall t :: t <= now ==> CacheValid(s, t)
    ensures !CacheValid(s, s.tokenExpiry)
    ensures s.accessToken.None? || s.accessToken.value == "" ==> !CacheValid(s, now)
  {
  }

  /** The answer of the OAuth endpoint. */
  datatype AuthResponse = AuthGranted(accessToken: string) | AuthRefused

  /** A token request: the token (or the thrown error), the client after it, and whether the endpoint was called. */
  datatype TokenStep = TokenStep(token: Completion<string>, service: Service, fetched: bool)

  const AuthFailedMessage := "Failed to authenticate with M-Pesa"

  /**
   * `getAccessToken`: a valid cached token is returned without calling the endpoint;
   * otherwise the endpoint is called, and a granted token is cached until
   * `now + TokenLifetimeMs`, while a refusal throws and leaves the cache alone.
   */
  function GetAccessToken(s: Service, now: int, auth: AuthResponse): (r: TokenStep)
    ensures r.fetched <==> !CacheValid(s, now)
    ensures !r.fetched ==> r.token == Returned(s.accessToken.value) && r.service == s
    ensures r.fetched && auth.AuthGranted? ==>
              r.token == Returned(auth.accessToken) &&
              r.service == s.(accessToken := Some(auth.accessToken), tokenExpiry := now + 3000000)
    ensures r.fetched && auth.AuthRefused? ==> r.token == Threw(AuthFailedMessage) && r.service == s
    ensures r.service.config == s.config && r.service.baseUrl == s.baseUrl
  {
    if CacheValid(s, now) then TokenStep(Returned(s.accessToken.value), s, false)
    else match auth
      case AuthGranted(token) =>
        TokenStep(Returned(token), s.(accessToken := Some(token), tokenExpiry := now + TokenLifetimeMs), true)
      case AuthRefused =>
        TokenStep(Threw(AuthFailedMessage), s, true)
  }

  /**
   * A token granted at `t` is reused, without calling the endpoint, at every later
   * moment before `t + 3,000,000` ms, and is refetched from then on.
   */
  lemma TokenReusedForFiftyMinutes(s: Service, t: int, token: string, later: int, auth: AuthResponse)
    requires !CacheValid(s, t) && token != ""
    requires t <= later
    ensures var s1 := GetAccessToken(s, t, AuthGranted(token)).service;
            (later < t + 3000000 ==> GetAccessToken(s1, later, auth) == TokenStep(Returned(token), s1, false)) &&
            (later >= t + 3000000 ==> GetAccessToken(s1, later, auth).fetched)
  {
  }

  /** An empty token is never served from the cache: JavaScript treats "" as no token. */
  lemma EmptyTokenIsRefetched(s: Service, now: int, auth: AuthResponse)
    requires s.accessToken == Some("")
    ensures GetAccessToken(s, now, auth).fetched
  {
  }

  /** A payment to send. */
  datatype B2CRequest = B2CRequest(amount: real, phoneNumber: string, remarks: string, occasionReference: string)

  /** The JSON body of a B2C payment request. */
  datatype B2CPayload = B2CPayload(
    initiatorName: string,
    securityCredential: string,
    commandId: string,
    amount: int,
    partyA: string,
    partyB: string,
    remarks: string,
    queueTimeOutUrl: string,
    resultUrl: string,
    occasion: string)

  /** The HTTP request actually posted: where, with which bearer header, carrying which payload. */
  datatype PaymentPost = PaymentPost(url: string, authorization: string, payload: B2CPayload)

  /** The provider's synchronous acknowledgement of a payment request. */
  datatype B2CResponse = B2CResponse(
    conversationId: string,
    originatorConversationId: string,
    responseCode: string,
    responseDescription: string)

  /** The answer of the payment endpoint: accepted, or an HTTP failure that may carry an `errorMessage`. */
  datatype PostResponse = PostAccepted(data: B2CResponse) | PostFailed(errorMessage: Option<string>)

  /** `Math.round`: the nearest integer, halves rounded up. */
  function Round(x: real): (n: int)
    ensures x - 0.5 < n as real <= x + 0.5
  {
    (x + 0.5).Floor
  }

  function Distance(a: real, b: real): real {
    if a >= b then a - b else b - a
  }

  /** Round picks a nearest integer: no integer is closer to `x`. */
  lemma RoundIsNearest(x: real, k: int)
    ensures Distance(k as real, x) >= Distance(Round(x) as real, x)
  {
    var n := Round(x);
    if k < n {
      assert k as real <= n as real - 1.0;
    } else if k > n {
      assert k as real >= n as real + 1.0;
    }
  }

  predicate NotPlus(c: char) {
    c != '+'
  }

  /** `phone.replace(/\+/g, '')`: every plus sign removed, every other character kept in order. */
  function RemovePlus(phone: string): (r: string)
    ensures forall i :: 0 <= i < |r| ==> r[i] != '+' && r[i] in phone
    ensures forall i :: 0 <= i < |phone| && phone[i] != '+' ==> phone[i] in r
    ensures '+' !in phone ==> r == phone
  {
    if '+' !in phone then
      Tables.FilterKeepsAll(phone, NotPlus);
      Tables.Filter(phone, NotPlus)
    else
      Tables.Filter(phone, NotPlus)
  }

  /** Removing plus signs works piece by piece: it distributes over concatenation. */
  lemma RemovePlusAppend(a: string, b: string)
    ensures RemovePlus(a + b) == RemovePlus(a) + RemovePlus(b)
  {
    Tables.FilterAppend(a, b, NotPlus);
  }

  /** On one character: a `+` vanishes, anything else is kept. */
  lemma RemovePlusChar(c: char)
    ensures RemovePlus([c]) == if c == '+' then "" else [c]
  {
    assert [c][1..] == [];
  }

  /** The payload's party-B number: plus signs removed, then one leading 0 replaced by 254. */
  function PayloadPhone(phone: string): (r: string)
    ensures forall i :: 0 <= i < |r| ==> r[i] != '+'
    ensures var p := RemovePlus(phone); "0" <= p ==> r == "254" + p[1..]
    ensures var p := RemovePlus(phone); !("0" <= p) ==> r == p
  {
    var p := RemovePlus(phone);
    if "0" <= p then "254" + p[1..] else p
  }

  /** Removing the plus signs of a formatted number leaves everything after its `+`. */
  lemma RemovePlusOfFormatted(p: string)
    requires Utils.IsFormatted(p)
    ensures RemovePlus(p) == p[1..]
  {
    var tail := p[1..];
    assert p[0] == '+';
    assert Tables.Filter(p, NotPlus) == Tables.Filter(tail, NotPlus);
    forall i | 0 <= i < |tail|
      ensures NotPlus(tail[i])
    {
      assert Utils.IsDigit(tail[i]);
    }
    Tables.FilterKeepsAll(tail, NotPlus);
  }

  /** A stored (formatted) number reaches the provider as its digits: `254...` with the `+` dropped. */
  lemma PayloadPhoneOfFormatted(p: string)
    requires Utils.IsFormatted(p)
    ensures PayloadPhone(p) == p[1..]
    ensures "254" <= PayloadPhone(p) && Utils.AllDigits(PayloadPhone(p))
  {
    RemovePlusOfFormatted(p);
    assert p[1..][0] == '2';
  }

  /** The payment body built for `req` under `config`. */
  function BuildPayload(config: MpesaConfig, req: B2CRequest): (b: B2CPayload)
    ensures b.amount as real - 0.5 <= req.amount < b.amount as real + 0.5
    ensures b.partyB == PayloadPhone(req.phoneNumber)
    ensures b.queueTimeOutUrl == config.callbackUrl + "/timeout"
    ensures b.resultUrl == config.callbackUrl + "/result"
    ensures b.occasion == req.occasionReference && b.remarks == req.remarks
    ensures b.commandId == "BusinessPayment" && b.partyA == config.shortcode
  {
    B2CPayload(
      config.initiatorName,
      config.securityCredential,
      "BusinessPayment",
      Round(req.amount),
      config.shortcode,
      PayloadPhone(req.phoneNumber),
      req.remarks,
      config.callbackUrl + "/timeout",
      config.callbackUrl + "/result",
      req.occasionReference)
  }

  const SendFailedMessage := "Failed to send M-Pesa payment"

  /** A payment attempt: the provider's answer (or the thrown error), the client after it, and what was posted. */
  datatype SendStep = SendStep(outcome: Completion<B2CResponse>, service: Service, posted: Option<PaymentPost>)

  /**
   * `sendMoney`: get a token, build the payload and post it. Any failure is rethrown
   * with the provider's `errorMessage` when one is present, else a fixed message; an
   * authentication failure carries no provider message, so it surfaces as the fixed one.
   */
  function SendMoney(s: Service, req: B2CRequest, now: int, auth: AuthResponse, post: PostResponse): (r: SendStep)
    ensures r.service == GetAccessToken(s, now, auth).service
    ensures GetAccessToken(s, now, auth).token.Threw? ==> r.outcome == Threw(SendFailedMessage) && r.posted.None?
    ensures GetAccessToken(s, now, auth).token.Returned? ==>
              r.posted == Some(PaymentPost(s.baseUrl + "/mpesa/b2c/v1/paymentrequest",
                                           "Bearer " + GetAccessToken(s, now, auth).token.value,
                                           BuildPayload(s.config, req)))
    ensures r.posted.Some? ==> r.posted.value.payload == BuildPayload(s.config, req)
    ensures r.outcome.Returned? <==> GetAccessToken(s, now, auth).token.Returned? && post.PostAccepted?
    ensures r.outcome.Returned? ==> r.outcome.value == post.data
    ensures r.outcome.Threw? ==> r.outcome.message != ""
    ensures r.outcome.Threw? && r.posted.Some? ==> r.outcome.message == OrElse(post.errorMessage, SendFailedMessage)
  {
    var tokenStep := GetAccessToken(s, now, auth);
    match tokenStep.token
    case Threw(_) => SendStep(Threw(SendFailedMessage), tokenStep.service, None)
    case Returned(token) =>
      var sent := PaymentPost(s.baseUrl + "/mpesa/b2c/v1/paymentrequest", "Bearer " + token, BuildPayload(s.config, req));
      match post
      case PostAccepted(data) => SendStep(Returned(data), tokenStep.service, Some(sent))
      case PostFailed(errorMessage) => SendStep(Threw(OrElse(errorMessage, SendFailedMessage)), tokenStep.service, Some(sent))
  }
}

=== FILE: schema.dfy ===
/**
 * The database schema: the tables of users, employers, employees, advances and
 * transactions as immutable records, their closed enumerations and column defaults.
 * Money is an exact `real`; timestamps are milliseconds since the epoch.
 */
module Schema {
  import opened Wrappers

  type Money = real
  type Timestamp = int

  datatype UserRole = AdminRole | EmployerRole | EmployeeRole

  /** The closed status enumeration of an advance. */
  datatype AdvanceStatus = Pending | Approved | Disbursed | Failed | Cancelled | Repaid

  /** The text stored in the `status` column for each status. */
  function StatusName(s: AdvanceStatus): string {
    match s
    case Pending => "pending"
    case Approved => "approved"
    case Disbursed => "disbursed"
    case Failed => "failed"
    case Cancelled => "cancelled"
    case Repaid => "repaid"
  }

  datatype TransactionType = AdvanceDisbursement | AdvanceRepayment | Fee
  datatype TransactionStatus = TxPending | TxCompleted | TxFailed

  /** An employer's advance policy, stored as a JSON column. */
  datatype Settings = Settings(
    autoApproveAdvances: bool,
    maxAdvancePercentage: real,
    maxAdvancesPerMonth: int,
    feePercentage: real,
    flatFee: Money)

  /** The policy a new employer row receives when none is given. */
  const DefaultSettings := Settings(
    autoApproveAdvances := true,
    maxAdvancePercentage := 50.0,
    maxAdvancesPerMonth := 4,
    feePercentage := 4.0,
    flatFee := 0.0)

  datatype User = User(
    id: string,
    email: Option<string>,
    phoneNumber: string,
    pin: Option<string>,
    role: UserRole)

  /** `settings` is a nullable JSON column (its default applies only when the insert omits it). */
  datatype Employer = Employer(
    id: string,
    userId: string,
    companyName: string,
    isActive: bool,
    settings: Option<Settings>)

  datatype Employee = Employee(
    id: string,
    userId: string,
    employerId: string,
    employeeNumber: string,
    firstName: string,
    lastName: string,
    phoneNumber: string,
    mpesaNumber: string,
    monthlySalary: Money,
    hireDate: Timestamp,
    isActive: bool)

  /** One advance row. Every `Option` field is a nullable column. */
  datatype Advance = Advance(
    id: string,
    employeeId: string,
    employerId: string,
    payrollPeriodId: string,
    amount: Money,
    fee: Money,
    totalAmount: Money,
    status: AdvanceStatus,
    requestedAt: Timestamp,
    approvedAt: Option<Timestamp>,
    disbursedAt: Option<Timestamp>,
    failedAt: Option<Timestamp>,
    failureReason: Option<string>,
    mpesaTransactionId: Option<string>,
    mpesaConversationId: Option<string>,
    repaidAt: Option<Timestamp>)

  datatype Transaction = Transaction(
    id: string,
    advanceId: string,
    kind: TransactionType,
    amount: Money,
    status: TransactionStatus)

  /** The whole database: every table in insertion order. */
  datatype Db = Db(
    users: seq<User>,
    employers: seq<Employer>,
    employees: seq<Employee>,
    advances: seq<Advance>)

  /** A value that a scale-2 decimal column holds exactly: a whole number of cents. */
  predicate IsCents(x: real) {
    (x * 100.0).Floor as real == x * 100.0
  }

  /** `y` rounded to the nearest integer, halves away from zero. */
  function RoundHalfAway(y: real): (n: int)
    ensures y - 0.5 <= n as real <= y + 0.5
    ensures y >= 0.0 ==> n >= 0
    ensures y.Floor as real == y ==> n as real == y
    ensures y >= 0.0 ==> y - 0.5 < n as real
    ensures y < 0.0 ==> n as real < y + 0.5
  {
    if y >= 0.0 then
      var n := (y + 0.5).Floor;
      assert y.Floor as real == y ==> n == y.Floor;
      n
    else
      var m := (-y + 0.5).Floor;
      assert y.Floor as real == y ==> m == -y.Floor;
      -m
  }

  /**
   * The value a `decimal(12, 2)` column stores for `x`: rounded to the nearest cent,
   * halves away from zero.
   */
  function Scale2(x: real): (r: Money)
    ensures IsCents(r)
    ensures -0.005 <= r - x <= 0.005
    ensures IsCents(x) ==> r == x
    ensures x >= 0.0 ==> r >= 0.0
    ensures x >= 0.0 ==> -0.005 < r - x
    ensures x < 0.0 ==> r - x < 0.005
  {
    var n := RoundHalfAway(x * 100.0);
    assert (n as real / 100.0) * 100.0 == n as real;
    n as real / 100.0
  }

  /**
   * The row an insert into `advances` produces: money columns stored at scale 2,
   * `status` defaulting to pending, `requestedAt` defaulting to now, and every
   * column the insert leaves out null.
   */
  function InsertAdvance(
    id: string, employeeId: string, employerId: string, payrollPeriodId: string,
    amount: real, fee: real, totalAmount: real,
    status: Option<AdvanceStatus>, approvedAt: Option<Timestamp>, now: Timestamp): (a: Advance)
    ensures a.id == id && a.employeeId == employeeId && a.employerId == employerId
    ensures status.None? ==> a.status == Pending
    ensures status.Some? ==> a.status == status.value
    ensures a.requestedAt == now && a.approvedAt == approvedAt
    ensures IsCents(a.amount) && IsCents(a.fee) && IsCents(a.totalAmount)
    ensures a.disbursedAt.None? && a.failedAt.None? && a.repaidAt.None?
    ensures a.failureReason.None? && a.mpesaTransactionId.None? && a.mpesaConversationId.None?
  {
    Advance(id, employeeId, employerId, payrollPeriodId,
            Scale2(amount), Scale2(fee), Scale2(totalAmount),
            status.GetOr(Pending), now, approvedAt,
            None, None, None, None, None, None)
  }

  /** The row an insert into `transactions` produces; `status` defaults to pending. */
  function InsertTransaction(
    id: string, advanceId: string, kind: TransactionType, amount: real,
    status: Option<TransactionStatus>): (t: Transaction)
    ensures status.None? ==> t.status == TxPending
    ensures status.Some? ==> t.status == status.value
    ensures t.kind == kind && t.advanceId == advanceId && IsCents(t.amount)
  {
    Transaction(id, advanceId, kind, Scale2(amount), status.GetOr(TxPending))
  }

  /** Storing a value that is already whole cents changes nothing, and storing twice is storing once. */
  lemma Scale2Idempotent(x: real)
    ensures Scale2(Scale2(x)) == Scale2(x)
  {
  }

  /**
   * Rounding each money column separately keeps `totalAmount == amount + fee`
   * whenever the requested principal is a whole number of cents and the fee is not negative.
   */
  lemma StoredTotalMatchesWholeCents(amount: real, fee: real)
    requires IsCents(amount) && amount >= 0.0 && fee >= 0.0
    ensures Scale2(amount + fee) == Scale2(amount) + Scale2(fee)
  {
    var k := (amount * 100.0).Floor;
    var f := (fee * 100.0 + 0.5).Floor;
    assert (amount + fee) * 100.0 + 0.5 == k as real + (fee * 100.0 + 0.5);
    assert ((amount + fee) * 100.0 + 0.5).Floor == k + f;
  }
}

=== FILE: tables.dfy ===
/** Query primitives over a table kept as a sequence of rows in insertion order. */
module Tables {
  import opened Wrappers

  /** Position of the first row satisfying `p`, or `|rows|` when no row does. */
  function FirstIndex<T>(rows: seq<T>, p: T -> bool): (k: nat)
    ensures k <= |rows|
    ensures forall j :: 0 <= j < k ==> !p(rows[j])
    ensures k < |rows| ==> p(rows[k])
  {
    if |rows| == 0 then 0
    else if p(rows[0]) then 0
    else 1 + FirstIndex(rows[1..], p)
  }

  /** `findFirst({ where })` / `select ... limit 1`: the first row satisfying `p`. */
  function FindFirst<T>(rows: seq<T>, p: T -> bool): (r: Option<T>)
    ensures r.None? <==> forall j :: 0 <= j < |rows| ==> !p(rows[j])
    ensures r.Some? ==> r.value in rows && p(r.value)
  {
    var k := FirstIndex(rows, p);
    if k < |rows| then Some(rows[k]) else None
  }

  /** A matching row with no match before it is the one found. */
  lemma FindFirstAt<T>(rows: seq<T>, p: T -> bool, k: nat)
    requires k < |rows| && p(rows[k])
    requires forall j :: 0 <= j < k ==> !p(rows[j])
    ensures FindFirst(rows, p) == Some(rows[k])
  {
    var k' := FirstIndex(rows, p);
  }

  /** Rows appended after a match do not change which row is found first. */
  lemma FindFirstAppendAfterMatch<T>(a: seq<T>, b: seq<T>, p: T -> bool)
    requires FindFirst(a, p).Some?
    ensures FindFirst(a + b, p) == FindFirst(a, p)
  {
    var k := FirstIndex(a, p);
    var k' := FirstIndex(a + b, p);
    assert (a + b)[k] == a[k];
  }

  /** With no match among `a`, a matching row appended after them is the one found. */
  lemma FindFirstAppendNewMatch<T>(a: seq<T>, x: T, p: T -> bool)
    requires FindFirst(a, p).None? && p(x)
    ensures FindFirst(a + [x], p) == Some(x)
  {
    var k' := FirstIndex(a + [x], p);
    assert (a + [x])[|a|] == x;
  }

  /** The rows satisfying `p`, in their original order. */
  function Filter<T>(rows: seq<T>, p: T -> bool): (r: seq<T>)
    ensures |r| <= |rows|
    ensures forall i :: 0 <= i < |r| ==> p(r[i]) && r[i] in rows
    ensures forall i :: 0 <= i < |rows| && p(rows[i]) ==> rows[i] in r
  {
    if |rows| == 0 then []
    else (if p(rows[0]) then [rows[0]] else []) + Filter(rows[1..], p)
  }

  /** The members of a filter are exactly the members of the table that satisfy the predicate. */
  lemma FilterMembers<T>(rows: seq<T>, p: T -> bool)
    ensures forall a :: a in Filter(rows, p) <==> a in rows && p(a)
  {
    var selected := Filter(rows, p);
    forall a
      ensures a in selected <==> a in rows && p(a)
    {
      if a in selected {
        var i :| 0 <= i < |selected| && selected[i] == a;
      }
      if a in rows && p(a) {
        var i :| 0 <= i < |rows| && rows[i] == a;
      }
    }
  }

  /** Filtering distributes over concatenation. */
  lemma {:induction false} FilterAppend<T>(a: seq<T>, b: seq<T>, p: T -> bool)
    ensures Filter(a + b, p) == Filter(a, p) + Filter(b, p)
  {
    if |a| == 0 {
      assert a + b == b;
    } else {
      assert (a + b)[1..] == a[1..] + b;
      FilterAppend(a[1..], b, p);
    }
  }

  /** A filter that every row passes keeps the whole table. */
  lemma {:induction false} FilterKeepsAll<T>(rows: seq<T>, p: T -> bool)
    requires forall i :: 0 <= i < |rows| ==> p(rows[i])
    ensures Filter(rows, p) == rows
  {
    if |rows| > 0 {
      FilterKeepsAll(rows[1..], p);
    }
  }

  /** A row the filter rejects can be appended without changing the result. */
  lemma FilterIgnoresRejected<T>(rows: seq<T>, x: T, p: T -> bool)
    requires !p(x)
    ensures Filter(rows + [x], p) == Filter(rows, p)
  {
    FilterAppend(rows, [x], p);
    assert Filter([x], p) == [] + Filter([x][1..], p);
  }

  /** Two filters that agree on every row select the same rows. */
  lemma {:induction false} FilterAgrees<T>(rows: seq<T>, p: T -> bool, q: T -> bool)
    requires forall i :: 0 <= i < |rows| ==> p(rows[i]) == q(rows[i])
    ensures Filter(rows, p) == Filter(rows, q)
  {
    if |rows| > 0 {
      FilterAgrees(rows[1..], p, q);
    }
  }

  /** Tables on which a predicate holds at the same positions have their first match at the same position. */
  lemma {:induction false} FirstIndexAgrees<T>(a: seq<T>, b: seq<T>, p: T -> bool)
    requires |a| == |b|
    requires forall i :: 0 <= i < |a| ==> p(a[i]) == p(b[i])
    ensures FirstIndex(a, p) == FirstIndex(b, p)
  {
    if |a| > 0 && !p(a[0]) {
      FirstIndexAgrees(a[1..], b[1..], p);
    }
  }

  /** `update ... set f where id = key`: `f` applied to every row whose key is `key`, the rest untouched. */
  function UpdateWhere<T>(rows: seq<T>, key: T -> string, id: string, f: T -> T): (r: seq<T>)
    ensures |r| == |rows|
    ensures forall i :: 0 <= i < |rows| ==> r[i] == if key(rows[i]) == id then f(rows[i]) else rows[i]
  {
    seq(|rows|, i requires 0 <= i < |rows| => if key(rows[i]) == id then f(rows[i]) else rows[i])
  }

  /** The first `n` rows, or all of them when there are fewer (`limit n`). */
  function Take<T>(rows: seq<T>, n: nat): (r: seq<T>)
    ensures |r| == if |rows| <= n then |rows| else n
    ensures r <= rows
  {
    if |rows| <= n then rows else rows[..n]
  }
}

=== FILE: utils.dfy ===
/** Kenyan phone-number formatting and weekday counting. */
module Utils {
  import opened Tables

  predicate IsDigit(c: char) {
    '0' <= c <= '9'
  }

  predicate AllDigits(s: string) {
    forall i :: 0 <= i < |s| ==> IsDigit(s[i])
  }

  /** `s.replace(/\D/g, '')`: the digits of `s`, in order. */
  function DigitsOf(s: string): (r: string)
    ensures AllDigits(r)
  {
    Filter(s, IsDigit)
  }

  /** The shape every formatted number has: `+254` followed by nothing but digits. */
  predicate IsFormatted(p: string) {
    "+254" <= p && AllDigits(p[1..])
  }

  /**
   * Normalises a phone number to `+254...`: non-digits are dropped, a number already
   * starting with 254 just gains a `+`, a leading 0 is replaced by +254, and any other
   * number is taken to lack its country code.
   */
  function FormatPhoneNumber(phone: string): (r: string)
    ensures IsFormatted(r)
  {
    var cleaned := DigitsOf(phone);
    if "254" <= cleaned then "+" + cleaned
    else if "0" <= cleaned then "+254" + cleaned[1..]
    else "+254" + cleaned
  }

  /** A string of digits is its own digits. */
  lemma DigitsOfDigitString(s: string)
    requires AllDigits(s)
    ensures DigitsOf(s) == s
  {
    FilterKeepsAll(s, IsDigit);
  }

  /** The `+` and the space of `+254 n` are dropped. */
  lemma DigitsOfSpaced(n: string)
    requires AllDigits(n)
    ensures DigitsOf("+254 " + n) == "254" + n
  {
    FilterAppend("+254 ", n, IsDigit);
    DigitsOfDigitString(n);
    assert Filter("+254 ", IsDigit) == "254" by {
      assert "+254 "[1..] == "254 ";
      assert "254 "[1..] == "54 ";
      assert "54 "[1..] == "4 ";
      assert "4 "[1..] == " ";
      assert " "[1..] == "";
    }
  }

  /** Two digit strings joined are a digit string. */
  lemma AllDigitsAppend(a: string, b: string)
    requires AllDigits(a) && AllDigits(b)
    ensures AllDigits(a + b)
  {
    forall i | 0 <= i < |a + b|
      ensures IsDigit((a + b)[i])
    {
      if i >= |a| {
        assert (a + b)[i] == b[i - |a|];
      }
    }
  }

  /** A national number: the leading 0 gives way to the country code. */
  lemma FormatNational(n: string)
    requires AllDigits(n)
    ensures FormatPhoneNumber("0" + n) == "+254" + n
  {
    var national := "0" + n;
    AllDigitsAppend("0", n);
    DigitsOfDigitString(national);
    assert national[1..] == n;
  }

  /** A number with the country code just gains its `+`. */
  lemma FormatInternational(n: string)
    requires AllDigits(n)
    ensures FormatPhoneNumber("254" + n) == "+254" + n
  {
    var international := "254" + n;
    AllDigitsAppend("254", n);
    DigitsOfDigitString(international);
    assert "+" + international == "+254" + n;
  }

  /**
   * The usual spellings of one subscriber number `n` (national with a leading 0, with
   * the country code, with a `+` and a space, or bare) all format to the same number.
   */
  lemma SameNumberSameFormat(n: string)
    requires AllDigits(n) && !("0" <= n) && !("254" <= n)
    ensures FormatPhoneNumber(n) == "+254" + n
    ensures FormatPhoneNumber("0" + n) == "+254" + n
    ensures FormatPhoneNumber("254" + n) == "+254" + n
    ensures FormatPhoneNumber("+254 " + n) == "+254" + n
  {
    DigitsOfDigitString(n);
    FormatNational(n);
    FormatInternational(n);
    DigitsOfSpaced(n);
    FormatIgnoresNonDigits("+254 " + n);
  }

  /** Extracting digits twice is extracting them once. */
  lemma DigitsOfDigits(s: string)
    ensures DigitsOf(DigitsOf(s)) == DigitsOf(s)
  {
    FilterKeepsAll(DigitsOf(s), IsDigit);
  }

  /** Characters other than digits play no part in the result. */
  lemma FormatIgnoresNonDigits(phone: string)
    ensures FormatPhoneNumber(phone) == FormatPhoneNumber(DigitsOf(phone))
  {
    DigitsOfDigits(phone);
  }

  /** Formatting a formatted number returns it unchanged. */
  lemma FormatIdempotent(phone: string)
    ensures FormatPhoneNumber(FormatPhoneNumber(phone)) == FormatPhoneNumber(phone)
  {
    var p := FormatPhoneNumber(phone);
    FormatFixesFormatted(p);
  }

  /** The digits of a formatted number are everything after its `+`. */
  lemma DigitsOfFormatted(p: string)
    requires IsFormatted(p)
    ensures DigitsOf(p) == p[1..]
  {
    var tail := p[1..];
    assert p[0] == '+';
    assert Filter(p, IsDigit) == Filter(tail, IsDigit);
    FilterKeepsAll(tail, IsDigit);
  }

  /** Every number of the formatted shape is a fixed point of the formatter. */
  lemma FormatFixesFormatted(p: string)
    requires IsFormatted(p)
    ensures FormatPhoneNumber(p) == p
  {
    DigitsOfFormatted(p);
    var tail := p[1..];
    assert "254" <= tail;
    assert p[0] == '+';
    assert p == "+" + tail;
  }

  // ---------------------------------------------------------------------------
  // Work days
  // ---------------------------------------------------------------------------

  /** A day of the week, 0 = Sunday ... 6 = Saturday, as `Date.getDay` numbers them. */
  predicate IsWorkday(weekday: int) {
    weekday != 0 && weekday != 6
  }

  /** The weekday of the day `i` days after a day whose weekday is `startWeekday`. */
  function WeekdayAfter(startWeekday: int, i: int): int {
    (startWeekday + i) % 7
  }

  /** 1 for a weekday, 0 for Saturday or Sunday. */
  function Mark(weekday: int): nat {
    if IsWorkday(weekday) then 1 else 0
  }

  /** How many of the first `n` days, starting on weekday `startWeekday`, are Monday to Friday. */
  function WorkdaysIn(startWeekday: int, n: nat): (r: nat)
    ensures r <= n
  {
    if n == 0 then 0
    else WorkdaysIn(startWeekday, n - 1) + Mark(WeekdayAfter(startWeekday, n - 1))
  }

  /**
   * Counts the weekdays from `startDate` to `endDate` inclusive. Dates are day numbers;
   * `startWeekday` is the weekday of `startDate`.
   */
  method CalculateWorkDays(startDate: int, endDate: int, startWeekday: int) returns (count: nat)
    ensures startDate > endDate ==> count == 0
    ensures startDate <= endDate ==> count <= endDate - startDate + 1
    ensures startDate <= endDate ==> count == WorkdaysIn(startWeekday, endDate - startDate + 1)
  {
    count := 0;
    var current := startDate;
    while current <= endDate
      invariant startDate <= current
      invariant startDate <= endDate ==> current <= endDate + 1
      invariant startDate > endDate ==> current == startDate
      invariant count == WorkdaysIn(startWeekday, current - startDate)
      decreases endDate - current
    {
      var day := WeekdayAfter(startWeekday, current - startDate);
      if day != 0 && day != 6 {
        count := count + 1;
      }
      current := current + 1;
    }
  }

  /** Weekdays repeat every seven days. */
  lemma WeekdayPeriodic(w: int, i: int)
    ensures WeekdayAfter(w, i + 7) == WeekdayAfter(w, i)
  {
    var q := (w + i) / 7;
    assert w + i + 7 == 7 * (q + 1) + (w + i) % 7;
  }

  /** Seven consecutive weekday numbers, starting anywhere in the week, mark five days. */
  lemma SevenMarks(b: int)
    requires 0 <= b < 7
    ensures Mark(b % 7) + Mark((b + 1) % 7) + Mark((b + 2) % 7) + Mark((b + 3) % 7) +
            Mark((b + 4) % 7) + Mark((b + 5) % 7) + Mark((b + 6) % 7) == 5
  {
    if b == 0 {
    } else if b == 1 {
    } else if b == 2 {
    } else if b == 3 {
    } else if b == 4 {
    } else if b == 5 {
    } else {
    }
  }

  /** The first seven days, whatever weekday they start on, hold exactly five weekdays. */
  lemma FirstWeekHasFiveWorkdays(w: int)
    ensures WorkdaysIn(w, 7) == 5
  {
    var b := w % 7;
    var q := w / 7;
    assert w == 7 * q + b;
    forall j | 0 <= j < 7
      ensures WeekdayAfter(w, j) == (b + j) % 7
    {
      assert w + j == 7 * q + (b + j);
    }
    assert WorkdaysIn(w, 1) == Mark(b % 7);
    assert WorkdaysIn(w, 2) == WorkdaysIn(w, 1) + Mark((b + 1) % 7);
    assert WorkdaysIn(w, 3) == WorkdaysIn(w, 2) + Mark((b + 2) % 7);
    assert WorkdaysIn(w, 4) == WorkdaysIn(w, 3) + Mark((b + 3) % 7);
    assert WorkdaysIn(w, 5) == WorkdaysIn(w, 4) + Mark((b + 4) % 7);
    assert WorkdaysIn(w, 6) == WorkdaysIn(w, 5) + Mark((b + 5) % 7);
    assert WorkdaysIn(w, 7) == WorkdaysIn(w, 6) + Mark((b + 6) % 7);
    SevenMarks(b);
  }

  /** Any seven consecutive days hold exactly five weekdays. */
  lemma {:induction false} WeekHasFiveWorkdays(startWeekday: int, n: nat)
    ensures WorkdaysIn(startWeekday, n + 7) == WorkdaysIn(startWeekday, n) + 5
  {
    if n == 0 {
      FirstWeekHasFiveWorkdays(startWeekday);
    } else {
      WeekHasFiveWorkdays(startWeekday, n - 1);
      WeekdayPeriodic(startWeekday, n - 1);
    }
  }

  /** Whole weeks hold five weekdays each: Saturdays and Sundays are never counted. */
  lemma {:induction false} WholeWeeks(startWeekday: int, weeks: nat)
    ensures WorkdaysIn(startWeekday, 7 * weeks) == 5 * weeks
  {
    if weeks > 0 {
      WholeWeeks(startWeekday, weeks - 1);
      WeekHasFiveWorkdays(startWeekday, 7 * (weeks - 1));
    }
  }

  /** A weekend on its own, Saturday then Sunday, counts for nothing. */
  lemma WeekendCountsNothing()
    ensures WorkdaysIn(6, 2) == 0
  {
  }
}

=== FILE: validators.dfy ===
/**
 * The request and record validators: each schema either accepts its input,
 * filling in the declared defaults, or rejects it.
 */
module Validators {
  import opened Wrappers
  import opened Schema

  /** The status enumeration accepts exactly the six status names. */
  function ParseAdvanceStatus(s: string): (r: Option<AdvanceStatus>)
    ensures r.Some? <==> s in {"pending", "approved", "disbursed", "failed", "cancelled", "repaid"}
    ensures r.Some? ==> StatusName(r.value) == s
  {
    if s == "pending" then Some(Pending)
    else if s == "approved" then Some(Approved)
    else if s == "disbursed" then Some(Disbursed)
    else if s == "failed" then Some(Failed)
    else if s == "cancelled" then Some(Cancelled)
    else if s == "repaid" then Some(Repaid)
    else None
  }

  /** Every status survives being written out and parsed back. */
  lemma StatusRoundTrip(st: AdvanceStatus)
    ensures ParseAdvanceStatus(StatusName(st)) == Some(st)
  {
  }

  /** The transaction-type enumeration accepts exactly its three names. */
  function ParseTransactionType(s: string): (r: Option<TransactionType>)
    ensures r.Some? <==> s in {"advance_disbursement", "advance_repayment", "fee"}
  {
    if s == "advance_disbursement" then Some(AdvanceDisbursement)
    else if s == "advance_repayment" then Some(AdvanceRepayment)
    else if s == "fee" then Some(Fee)
    else None
  }

  /** Employer settings as they arrive: any field may be missing. */
  datatype SettingsInput = SettingsInput(
    autoApproveAdvances: Option<bool>,
    maxAdvancePercentage: Option<real>,
    maxAdvancesPerMonth: Option<int>,
    feePercentage: Option<real>,
    flatFee: Option<real>)

  /**
   * The settings schema: a missing field takes its default, and the
   * maximum percentage must lie in [0, 100].
   */
  function ParseSettings(i: SettingsInput): (r: Option<Settings>)
    ensures r.None? <==> i.maxAdvancePercentage.Some? && !(0.0 <= i.maxAdvancePercentage.value <= 100.0)
    ensures r.Some? ==> 0.0 <= r.value.maxAdvancePercentage <= 100.0
    ensures r.Some? && i.maxAdvancePercentage.Some? ==> r.value.maxAdvancePercentage == i.maxAdvancePercentage.value
    ensures r.Some? && i.autoApproveAdvances.Some? ==> r.value.autoApproveAdvances == i.autoApproveAdvances.value
    ensures r.Some? && i.maxAdvancesPerMonth.Some? ==> r.value.maxAdvancesPerMonth == i.maxAdvancesPerMonth.value
    ensures r.Some? && i.feePercentage.Some? ==> r.value.feePercentage == i.feePercentage.value
    ensures r.Some? && i.flatFee.Some? ==> r.value.flatFee == i.flatFee.value
    ensures i == SettingsInput(None, None, None, None, None) ==> r == Some(DefaultSettings)
  {
    var pct := i.maxAdvancePercentage.GetOr(DefaultSettings.maxAdvancePercentage);
    if !(0.0 <= pct <= 100.0) then None
    else Some(Settings(
      i.autoApproveAdvances.GetOr(DefaultSettings.autoApproveAdvances),
      pct,
      i.maxAdvancesPerMonth.GetOr(DefaultSettings.maxAdvancesPerMonth),
      i.feePercentage.GetOr(DefaultSettings.feePercentage),
      i.flatFee.GetOr(DefaultSettings.flatFee)))
  }

  /** A validated payroll entry. */
  datatype PayrollEntry = PayrollEntry(daysWorked: real, grossPay: Money, deductions: Money, netPay: Money)

  /** The payroll-entry schema: days worked in [0, 31], deductions defaulting to zero. */
  function ParsePayrollEntry(daysWorked: real, grossPay: real, deductions: Option<real>, netPay: real): (r: Option<PayrollEntry>)
    ensures r.Some? <==> 0.0 <= daysWorked <= 31.0
    ensures r.Some? ==> r.value.deductions == deductions.GetOr(0.0) && r.value.daysWorked == daysWorked
    ensures r.Some? && deductions.None? ==> r.value.deductions == 0.0
  {
    if 0.0 <= daysWorked <= 31.0 then Some(PayrollEntry(daysWorked, grossPay, deductions.GetOr(0.0), netPay))
    else None
  }

  /** A login request: the PIN must be exactly four characters. */
  datatype LoginRequest = LoginRequest(phoneNumber: string, pin: string)

  function ParseLoginRequest(phoneNumber: string, pin: string): (r: Option<LoginRequest>)
    ensures r.Some? <==> |pin| == 4
    ensures r.Some? ==> r.value.pin == pin && r.value.phoneNumber == phoneNumber
  {
    if |pin| == 4 then Some(LoginRequest(phoneNumber, pin)) else None
  }

  /**
   * `z.number().positive()`, as the advance, request-advance, employee and
   * create-employee schemas apply it to amounts and monthly salaries.
   */
  function ParsePositive(x: real): (r: Option<Money>)
    ensures r.Some? <==> x > 0.0
    ensures r.Some? ==> r.value == x
  {
    if x > 0.0 then Some(x) else None
  }
}

=== FILE: wrappers.dfy ===
/** Optional values, HTTP replies and JavaScript-style completions shared by every module. */
module Wrappers {

  /** A nullable column or an optional JSON field. */
  datatype Option<+T> = None | Some(value: T) {

    /** The value, or `default` when absent. */
    function GetOr(default: T): T {
      match this
      case Some(v) => v
      case None => default
    }
  }

  /** An HTTP reply: a JSON success payload, or an error status with its error text. */
  datatype Reply<+T> = Ok(value: T) | Fail(code: int, error: string)

  /** The completion of a JavaScript call: it returns a value or throws an `Error` with a message. */
  datatype Completion<+T> = Returned(value: T) | Threw(message: string)

  /** JavaScript `s || fallback` for an optional string: the empty string is falsy too. */
  function OrElse(s: Option<string>, fallback: string): (r: string)
    ensures s.Some? && s.value != "" ==> r == s.value
    ensures s.None? || s.value == "" ==> r == fallback
  {
    if s.Some? && s.value != "" then s.value else fallback
  }
}
